=== FILE: README.md ===
# typedraw core in Dafny

A model of the three stages of the typedraw sequence-diagram compiler:

- the **scanner** (`src/language/scanner.ts`) turns the diagram text into tokens with half-open offsets and a list of lexical errors;
- the **parser** (`src/parser/parser.ts`) reads `actor ID = STR ;` and `action ID (->|<-) ID = STR ;` statements and recovers from a broken statement by synchronising on the next statement boundary;
- the **renderer** (`src/render/render.ts`) collects actors into an insertion-ordered registry and actions into a list, then draws one box per actor, the lifelines and, for each action, a label and an arrow.

Files:

- `base.dfy` holds `Option` and JavaScript's `slice`.
- `scanner.dfy` has the scanner as a step function over `(start, current, line)` with its loop invariant.
- `scanner_lemmas.dfy` says what each kind of character does. It also proves that, until a literal is cut short, every token delimits its own lexeme.
- `scanner_examples.dfy` holds the scanner examples from `tests/parser.test.ts` and a broken literal.
- `ast.dfy` holds the statements.
- `parser.dfy` is the parser. A thrown error becomes an `Attempt` value `Failed(error, at)`, and the position where it failed drives `synchronize`.
- `parser_lemmas.dfy` states the grammar as token rules. It proves that the parse loop is sound and that it returns every statement of a well-formed program.
- `parser_examples.dfy` holds the parser examples.
- `render.dfy` is the renderer. The canvas becomes a trace of `DrawOp` values with exact `real` coordinates. `measureText` becomes a function parameter. `render` returns `Success(trace)` or `Failure(name, partialTrace)`.
- `render_lemmas.dfy` covers the registry and the geometry. It also proves when the layout stops.

Five behaviours of the code that are easy to miss, and which the model keeps:

- A literal cut short by a newline leaves `start` one character later than the error report. `start` is incremented at line 106 and again in `scannerError`. `start` thus ends two characters past the opening quote. Each cut-short literal that read m characters, counting the newline, adds m-1 to the gap between `start` and `current`. Whitespace and "Unexpected character" errors move both together, and the gaps of consecutive cut-short literals add up. Only the next token closes the whole gap, since `start` is reset only in `addToken`. So the next token's span begins early by the sum of these gaps, and a later closed literal's STRING token starts early by that sum as well (see `Scanner.StringBodyEnds`, `ScannerExamples.BrokenStringExample`).
- A NUL character inside the input ends the scan early. The scanner treats it as its own sentinel. The EOF token is still placed after the whole source (`Scanner.Scan`).
- Parse errors are caught and discarded, so no error list comes out of the parser (`Parser.ParseFrom`).
- The renderer has no label-fitting loop, no font shrinking and no maximum box width.
- Redeclaring an actor overwrites its index with the registry's current size. It keeps its iteration position. The model keeps this behaviour (`Render.DeclareActor`, `RenderLemmas.RedeclaredLifeline`).

## Model

| member | source | states |
|---|---|---|
| Scanner.Keyword | src/language/scanner.ts:28-30 | a lexeme is a keyword exactly when it is `actor` or `action`; `actor` gives ACTOR and `action` gives ACTION |
| Scanner.Peek | src/language/scanner.ts:83-86 | nothing is returned exactly when the cursor is on a NUL of the input or on the sentinel; otherwise the result is the character under the cursor |
| Scanner.Advance | src/language/scanner.ts:78-81 | returns what `peek` returns and moves one character on, except on a NUL of the input or on the sentinel, where it stays |
| Scanner.Match | src/language/scanner.ts:88-91 | true exactly when the next source character is the one asked for, the cursor is not on a NUL of the input or on the sentinel, and the character asked for is not NUL |
| ScannerLemmas.AtEnd | src/language/scanner.ts:74-76 | the scanner is at its end exactly on the NUL the constructor appends after the source, or on a NUL inside the source |
| ScannerLemmas.WordChars | src/language/scanner.ts:49-55 | a letter or underscore both starts and continues a word. A digit continues a word but never starts one. NUL and every character that starts another lexeme (whitespace, `;`, `(`, `)`, `=`, `-`, `<` and the quote) continue none |
| Scanner.AddToken | src/language/scanner.ts:93-103 | appends one token spanning `start..current` on the current line and moves `start` up to `current`; nothing else changes |
| Scanner.ScannerError | src/language/scanner.ts:137-142 | appends one error carrying the line and the text between `start` and `current`, and bumps `start` by one; tokens, cursor and line are untouched |
| Scanner.Text | src/parser/parser.ts:54-57 | a token's text is the source slice under its span whenever the span lies inside the source |
| Scanner.StringBody | src/language/scanner.ts:107-114 | the literal loop never moves back, stays inside the source, keeps the line, and adds at most one token and at most one error |
| Scanner.StringBodyEnds | src/language/scanner.ts:105-120 | a closed literal gives one STRING token from `start` to the closing quote and resumes after that quote. When no earlier literal was cut short (`start == current` at the quote), this is exactly the text between the quotes. A literal cut short by a newline or the end gives one "Unterminated string" error and no token. In that case the line does not move and `start` moves one character further on |
| ScannerLemmas.StringLiteralSpan | src/language/scanner.ts:105-120 | `string` bumps `start` before reading. So a closed literal's STRING token starts one past where the lexeme began and ends at the closing quote. That start is just after the opening quote when no earlier literal was cut short (`start == current` at the quote). Scanning resumes after that quote. A cut-short literal adds one error and no token, and leaves `start` two past where the lexeme began |
| Scanner.IdentifierEnd | src/language/scanner.ts:122-125 | the identifier loop stops at the end of the maximal run of letters, digits and underscores |
| ScannerLemmas.IdentifierToken | src/language/scanner.ts:122-135 | `identifier` stops at the end of the maximal word and adds one token from `start` to there. Its kind is ACTOR or ACTION exactly when the text from `start` is that keyword, and IDENTIFIER otherwise. Line and errors are unchanged |
| Scanner.ScanStep | src/language/scanner.ts:154-221 | every loop iteration consumes at least one character, never lowers the line, and emits at most one token and at most one error |
| Scanner.StepKeepsInv | src/language/scanner.ts:153-222 | an iteration keeps the loop invariant: the cursor is inside a NUL-free prefix and earlier tokens end before `start`, on no later line, and are neither EOF nor ERROR |
| Scanner.ScanLoop | src/language/scanner.ts:154-222 | the main loop terminates at the sentinel or at the first NUL |
| Scanner.LoopKeepsInv | src/language/scanner.ts:154-222 | the loop invariant holds when the loop exits |
| Scanner.Scan | src/language/scanner.ts:144-224 | the output ends with exactly one EOF token spanning from the source length to one past it. No other token is EOF or ERROR. Every token ends inside the source, before any NUL. Tokens come in offset order with non-decreasing lines |
| ScannerLemmas.StepWhitespace | src/language/scanner.ts:158-170 | space, tab and CR only skip; LF also bumps the line; none emits anything |
| ScannerLemmas.StepFixedToken | src/language/scanner.ts:171-186 | `;`, `(`, `)` and `=` each emit one one-character token of their kind |
| ScannerLemmas.StepArrow | src/language/scanner.ts:187-208 | `->` and `<-` emit one two-character token. A lone `-` or `<` emits one "Unexpected character" error and leaves the next character unread |
| ScannerLemmas.StepUnexpected | src/language/scanner.ts:213-220 | any other character that starts no token emits one "Unexpected character" error and no token |
| ScannerLemmas.StepClosedString | src/language/scanner.ts:209-212 | a quote whose literal closes emits one STRING token from one past `start` to the closing quote, and continues after that quote. When no earlier literal was cut short (`start == current` at the quote), the token covers just the content |
| ScannerLemmas.StepUnterminatedString | src/language/scanner.ts:107-113 | a quote whose literal is cut short emits exactly one error and no token, and scanning goes on |
| ScannerLemmas.StepWord | src/language/scanner.ts:122-135 | a letter or underscore starts a maximal word, which becomes ACTOR, ACTION or IDENTIFIER according to the keyword table |
| ScannerLemmas.StepFaithful | src/language/scanner.ts:93-103 | until a literal is cut short, each iteration keeps `start == current`, makes each new token delimit exactly its lexeme, and keeps the line equal to one plus the newlines read |
| ScannerLemmas.LoopFaithful | src/language/scanner.ts:153-222 | the same holds when the main loop exits |
| ScannerLemmas.ScanLexemes | src/language/scanner.ts:153-224 | without a broken literal, every token but EOF spans exactly its lexeme, and on NUL-free input the EOF line is one plus the number of newlines |
| ScannerExamples.StringExample | tests/parser.test.ts:8-22 | `"12345"` scans to STRING 1..6 and EOF 7..8 on line 1 |
| ScannerExamples.FixedTokensExample | tests/parser.test.ts:24-50 | `( ) ; -> <- ` scans to spans 0-1, 2-3, 4-5, 6-8, 9-11 and EOF 12-13 |
| ScannerExamples.IdentifierExample | tests/parser.test.ts:52-65 | `a123` scans to IDENTIFIER 0..4 and EOF |
| ScannerExamples.KeywordExample | tests/parser.test.ts:67-80 | `actor` scans to ACTOR 0..5 and EOF |
| ScannerExamples.BrokenStringExample | src/language/scanner.ts:137-142 | after `"ab` is cut short by a newline, the next identifier's span starts inside the broken literal and reads `b\nx` |
| Parser.Previous | src/parser/parser.ts:25-28 | there is no previous token exactly at position 0; otherwise it is the token before the cursor |
| ParserLemmas.ScannedStream | src/parser/parser.ts:21-32 | on the scanner's output, `isAtEnd` holds exactly at the last token and `peek` never shows an ERROR token |
| Parser.Advance | src/parser/parser.ts:75-78 | returns the token under the cursor. It never moves past EOF: at EOF it stays, elsewhere it moves by one |
| Parser.Consume | src/parser/parser.ts:84-89 | succeeds exactly when the current token has the wanted kind, returning it and advancing; otherwise fails at the cursor with the given error |
| ParserLemmas.MatchThenAdvance | src/parser/parser.ts:80-89 | `match` accepts exactly a token of the wanted kind. Such a token, other than EOF, is not the end, and `advance` returns it and moves one on |
| Parser.ArrowAt | src/parser/parser.ts:37-48 | succeeds exactly on `->` or `<-`, giving RIGHT exactly for `->`, and otherwise fails with "Expected '->' or '<-'" at the cursor |
| Parser.ActorRest | src/parser/parser.ts:61-69 | an actor body consumes exactly three tokens when it succeeds and fails at or after its start |
| Parser.ActionRest | src/parser/parser.ts:34-59 | an action body consumes exactly five tokens when it succeeds and fails at or after its start |
| Parser.StatementAt | src/parser/parser.ts:91-107 | a statement that parses moves the cursor forward and stays before the end; a failure is reported inside the token list |
| Parser.SyncLoop | src/parser/parser.ts:111-120 | the skipping loop stops at the first boundary: EOF, just after a `;`, or on `actor`/`action` |
| Parser.Synchronize | src/parser/parser.ts:109-121 | recovery always moves at least one token unless at EOF, then stops at the first boundary after that |
| ParserLemmas.StatementShape | src/parser/parser.ts:91-107 | a statement parses exactly when its tokens follow its whole rule, giving the declaration read off the token spans. Otherwise it fails at the first token off the rule, with that position's error. A leading token that is not a keyword fails with "Expected declaration" |
| ParserLemmas.ActorShape | src/parser/parser.ts:61-69 | the same for `actor ID = STR ;` |
| ParserLemmas.ActorComplete | src/parser/parser.ts:61-69 | a full actor rule yields `ActorDeclaration` with name and value sliced from the source, five tokens on |
| ParserLemmas.ActorBroken | src/parser/parser.ts:61-69 | an actor rule that stops matching fails exactly where it stops, with the error for the missing token |
| ParserLemmas.ActionShape | src/parser/parser.ts:34-59 | the same for `action ID arrow ID = STR ;`, where the arrow is `->` or `<-` |
| ParserLemmas.ActionComplete | src/parser/parser.ts:34-59 | a full action rule yields `ActionDeclaration` with both names, the direction of the arrow and the value, seven tokens on |
| ParserLemmas.ActionBroken | src/parser/parser.ts:34-59 | an action rule that stops matching fails exactly where it stops, with the error for the missing token |
| ParserLemmas.ActionBrokenEarly | src/parser/parser.ts:34-50 | the same when the break is at the left name, the arrow or the right name |
| ParserLemmas.ActionBrokenLate | src/parser/parser.ts:50-59 | the same when the break is at `=`, the string or `;` |
| ParserLemmas.ParseStep | src/parser/parser.ts:125-132 | one turn of the parse loop keeps a complete statement and goes on after it. Otherwise it drops the statement and resumes where `synchronize` stops, which is strictly further on |
| ParserLemmas.ParseSound | src/parser/parser.ts:123-134 | every returned statement is the declaration of a complete token group, and the groups come in token order |
| ParserLemmas.ParseProgram | src/parser/parser.ts:123-134 | on a well-formed program the parser returns every statement, in order |
| ParserLemmas.ParseWhole | src/parser/parser.ts:123-134 | `parse` from the first token returns only the declarations of complete token groups, in token order, and on a well-formed program it returns every statement |
| ParserExamples.ActorExample | src/parser/parser.ts:61-69 | the tokens of `actor u = "string";` parse to `ActorDeclaration("u", "string")` |
| ParserExamples.RecoveryExample | src/parser/parser.ts:109-121 | `action -> B = "x"; action A -> B = "x";` parses to the second statement alone |
| ParserExamples.RecoverySync | src/parser/parser.ts:109-121 | recovery from the missing left name stops on the second `action` keyword |
| ParserExamples.LostStatementExample | src/parser/parser.ts:110-118 | in `actor actor A = "a";` the unconditional first step of recovery skips the second `actor`, so the complete statement after it is lost and the result is empty |
| Render.Set | src/render/render.ts:35 | a registered name keeps its position and takes the new actor, and a new name is appended; every other entry is unchanged |
| Render.FindFirst | src/render/render.ts:91-92 | lookup finds the first entry with the name, and finds nothing exactly when no entry has it |
| Render.DeclareActor | src/render/render.ts:33-36 | after `actor`, `get` on the name returns the new value with the registry's previous size as index; the action list is untouched |
| RenderLemmas.CollectStatementCases | src/render/render.ts:42-51 | an actor declaration leaves the action list alone and changes `get` only on its own name, to the new actor with the registry's old size as index. An action declaration leaves the registry alone and appends itself to the action list |
| Render.Collect | src/render/render.ts:42-51 | the action list holds only action declarations |
| Render.BoxWidth | src/render/render.ts:66-68 | `n` boxes of the computed width and `n-1` gaps of 100 add up to the canvas width |
| RenderLemmas.BoxMidSpacing | src/render/render.ts:70-75 | the first lifeline sits half a box in from the left edge and the last half a box in from the right edge. Neighbouring ones are a box width plus 100 apart, and all hang from the bottom edge of the boxes |
| Render.DrawActors | src/render/render.ts:53-64 | box `i` in iteration order is stroked at `(i*(boxWidth+100), 0, boxWidth, 80)`, with its label centred by the measured width |
| Render.ExtendTimeline | src/render/render.ts:77-88 | the timeline grows by 100 and one lifeline per registered actor is redrawn at the new length |
| Render.CheckRegistered | src/render/render.ts:90-96 | `check` fails exactly for unregistered names, and otherwise returns the actor stored under the name |
| Render.Next | src/render/render.ts:98-102 | an action point exists exactly for registered actors, and lies `50*(k+1)` below the bottom of the boxes |
| Render.FirstBroken | src/render/render.ts:108-116 | picks the first action with an undefined actor, or the number of actions when every actor is defined |
| Render.DrawAction | src/render/render.ts:118-132 | one action draws its label and then its arrow, exactly the two calls whose placement `RenderLemmas.ActionLevel` states |
| Render.ActionStep | src/render/render.ts:108-133 | one action lengthens the timeline to `100*(k+1)`. It draws one more block when both actors are defined. Otherwise it stops with the left actor if that one is undefined, else the right, after drawing only the lifelines |
| Render.DrawActions | src/render/render.ts:105-135 | the loop's result equals the loop-free layout: all blocks on success, or the blocks before the first broken action, its lifelines and the undefined name |
| Render.Render | src/render/render.ts:137-144 | `render` collects, draws the boxes, then the layout, and fails with exactly the layout's failure |
| RenderLemmas.CheckNames | src/render/render.ts:90-96 | `check` succeeds exactly for the names the registry holds |
| RenderLemmas.SetNames | src/render/render.ts:35 | `set` adds exactly its name, keeps names distinct, and grows the registry only for a new name |
| RenderLemmas.SetOther | src/render/render.ts:35 | `set` on one name leaves `get` on every other name as it was |
| RenderLemmas.GetSet | src/render/render.ts:90-96 | `get` after `set` on the same name returns the actor just stored. With `SetOther` this is the map's get/set law that `check` relies on |
| RenderLemmas.CollectActions | src/render/render.ts:38-51 | the collected actions are the program's action declarations in order |
| RenderLemmas.CollectRegistry | src/render/render.ts:33-51 | the registry holds every declared actor name exactly once and nothing else |
| RenderLemmas.CollectOrder | src/render/render.ts:33-36 | the registry lists names in order of their first declaration |
| RenderLemmas.CollectActor | src/render/render.ts:33-36 | a name's actor carries the value of its last declaration. Its index is the number of distinct names declared before that declaration. Undeclared names have none |
| RenderLemmas.FreshIndices | src/render/render.ts:33-36 | without redeclarations, every actor's index equals its position |
| RenderLemmas.RedeclaredLifeline | src/render/render.ts:34-35 | redeclaring the only actor leaves one entry with index 1 and the new label, and its lifeline falls right of the canvas |
| RenderLemmas.BoxesSpan | src/render/render.ts:53-68 | consecutive boxes are 100 apart and the last box ends exactly at the canvas width |
| RenderLemmas.LifelineUnderBox | src/render/render.ts:70-88 | an actor whose index is its position hangs its lifeline from the middle of its own box's bottom edge |
| RenderLemmas.ActionLevel | src/render/render.ts:118-132 | both ends of an action's arrow are at height `80+50*(k+1)`. RIGHT runs from the left actor to the right actor and LEFT the other way. The label is centred between the lifelines, 3 units higher |
| RenderLemmas.LayoutOutcome | src/render/render.ts:105-135 | the layout succeeds exactly when every action's actors are defined. A failure names the left actor of the first broken action if that one is undefined, else its right, and that name is indeed undefined. The trace has one call per actor plus two for each drawn action, and one call per actor for the broken one |
| RenderLemmas.RenderCompletes | src/render/render.ts:137-144 | `render` completes exactly when every action of the program names two declared actors |

## Left out

- Syntax highlighting (`span`, `HIGHLITED`, `CLASS_TOKEN_*`, `highlited`): it builds editor markup and does not affect tokens.
- Error message text, including the source excerpt in the parser's error messages: scan errors keep their kind, line and offending text; parse errors are an enumeration, and are discarded anyway.
- Character encoding: the source is a sequence of Dafny characters, not of UTF-16 code units, and the letter test is ASCII only, as in the source's regular expressions.
- `src/parser/scanner.ts`: a superseded copy of the scanner. `src/parser/parser.ts:9` imports `TokenType` from it, but its enumeration (`src/parser/scanner.ts:4-12`) has no ACTOR, ACTION or EOF, which the parser uses. The model uses the enumeration of `src/language/scanner.ts:4-17` in place of that import.
- The canvas: `strokeRect`, `fillText` and `strokeText` become trace entries, and `drawLine`/`drawArrow` from `./utils` (not part of this model) become `Line` and `Arrow` entries without their strokes; the font setting is not modelled.
- `measureText`: a function passed in by the caller, so text widths are unconstrained.
- Floating point: coordinates are exact reals, so rounding and the division by zero `getBoxWidth` would perform for an empty registry are not modelled (the source never calls it then).
- `console.log` calls in the renderer.
- The user interface, the React components, canvas sizing and the build configuration.

=== FILE: ast.dfy ===
/** The syntax tree the parser builds (src/parser/ast.ts). The TypeScript
    union of two record types becomes one sum type; its constructor plays
    the part of the `type` discriminant that the renderer switches on. */
module Ast {

  /** Which way an action's arrow points: `<-` is LEFT and `->` is RIGHT. */
  datatype Arrow = LEFT | RIGHT

  datatype Statement =
    | ActorDeclaration(name: string, value: string)
    | ActionDeclaration(leftActor: string, rightActor: string, direction: Arrow, value: string)
}

=== FILE: base.dfy ===
/** Small shared vocabulary: an optional value and JavaScript's `String.prototype.slice`. */
module Base {

  datatype Option<+T> = None | Some(value: T)

  /** `s.slice(from, to)` for non-negative bounds: both ends are clamped to the
      string and the result is empty when `from` is not below `to`. */
  function Slice(s: string, from: nat, to: nat): (r: string)
    ensures from <= to <= |s| ==> r == s[from..to]
    ensures to <= from ==> r == []
    ensures |r| <= |s|
  {
    var hi := if to <= |s| then to else |s|;
    var lo := if from <= hi then from else hi;
    s[lo..hi]
  }
}

=== FILE: parser.dfy ===
/** The recursive-descent parser (src/parser/parser.ts). A statement is an
    actor or an action declaration closed by a semicolon; the token rule of
    each is spelled out as `ActorRule` and `ActionRule` in ParserLemmas.

    The parser's mutable `current` becomes an explicit cursor `cur`, and a
    thrown error becomes a `Failed` attempt that remembers where the cursor
    was when it was thrown, because recovery starts from there. */
module Parser {
  import opened Base
  import opened Scanner
  import opened Ast

  /** What went wrong; the message text and its line are not modelled. */
  datatype ParseError =
    | ExpectedDeclaration | ExpectedActorName | ExpectedArrow
    | ExpectedEquals | ExpectedString | ExpectedSemicolon

  /** The outcome of one parsing function: its value and the cursor after it,
      or the error it threw and the cursor at the moment it threw. */
  datatype Attempt<+T> = Done(value: T, next: nat) | Failed(error: ParseError, at: nat)

  /** A token list as the scanner produces it: it ends with EOF. */
  predicate Stream(toks: seq<Token>)
  {
    |toks| > 0 && toks[|toks| - 1].kind == EOF
  }

  function Peek(toks: seq<Token>, cur: nat): (r: Token)
    requires cur < |toks|
  {
    toks[cur]
  }

  /** The token before the cursor; there is none at the very start. */
  function Previous(toks: seq<Token>, cur: nat): (r: Option<Token>)
    requires cur <= |toks|
    ensures r.None? <==> cur == 0
    ensures r.Some? ==> r.value == toks[cur - 1]
  {
    if cur == 0 then None else Some(toks[cur - 1])
  }

  predicate IsAtEnd(toks: seq<Token>, cur: nat)
    requires cur < |toks|
  {
    Peek(toks, cur).kind == EOF
  }

  /** Returns the token under the cursor and moves past it, except that the
      cursor never moves past an EOF token. */
  function Advance(toks: seq<Token>, cur: nat): (r: (Token, nat))
    requires Stream(toks) && cur < |toks|
    ensures r.0 == toks[cur]
    ensures r.1 < |toks|
    ensures toks[cur].kind == EOF ==> r.1 == cur
    ensures toks[cur].kind != EOF ==> r.1 == cur + 1
  {
    if IsAtEnd(toks, cur) then (Peek(toks, cur), cur) else (toks[cur], cur + 1)
  }

  /** Whether the token under the cursor has the given kind. */
  function Match(toks: seq<Token>, cur: nat, kind: TokenType): (r: bool)
    requires cur < |toks|
  {
    Peek(toks, cur).kind == kind
  }

  /** Takes a token of the given kind or throws `error` without moving. */
  function Consume(toks: seq<Token>, cur: nat, kind: TokenType, error: ParseError): (r: Attempt<Token>)
    requires Stream(toks) && cur < |toks|
    ensures r.Done? <==> toks[cur].kind == kind
    ensures r.Done? ==> r.value == toks[cur] && r.next == if kind == EOF then cur else cur + 1
    ensures r.Failed? ==> r == Failed(error, cur)
  {
    if Match(toks, cur, kind) then
      var (t, next) := Advance(toks, cur);
      Done(t, next)
    else Failed(error, cur)
  }

  /** The rest of an actor declaration, just after the `actor` keyword. */
  function ActorRest(src: string, toks: seq<Token>, cur: nat): (r: Attempt<Statement>)
    requires Stream(toks) && cur < |toks|
    ensures r.Done? ==> r.next == cur + 3 && r.next < |toks|
    ensures r.Failed? ==> cur <= r.at < |toks|
  {
    match Consume(toks, cur, IDENTIFIER, ExpectedActorName)
    case Failed(e, at) => Failed(e, at)
    case Done(name, c1) =>
      match Consume(toks, c1, EQUAL, ExpectedEquals)
      case Failed(e, at) => Failed(e, at)
      case Done(_, c2) =>
        match Consume(toks, c2, STRING, ExpectedString)
        case Failed(e, at) => Failed(e, at)
        case Done(value, c3) => Done(ActorDeclaration(Text(src, name), Text(src, value)), c3)
  }

  /** The arrow of an action declaration. */
  function ArrowAt(toks: seq<Token>, cur: nat): (r: Attempt<Arrow>)
    requires Stream(toks) && cur < |toks|
    ensures r.Done? <==> toks[cur].kind in {RIGHT_ARROW, LEFT_ARROW}
    ensures r.Done? ==> r.next == cur + 1 && (r.value == RIGHT <==> toks[cur].kind == RIGHT_ARROW)
    ensures r.Failed? ==> r == Failed(ExpectedArrow, cur)
  {
    match Peek(toks, cur).kind
    case RIGHT_ARROW => Done(RIGHT, Advance(toks, cur).1)
    case LEFT_ARROW => Done(LEFT, Advance(toks, cur).1)
    case _ => Failed(ExpectedArrow, cur)
  }

  /** The rest of an action declaration, just after the `action` keyword. */
  function ActionRest(src: string, toks: seq<Token>, cur: nat): (r: Attempt<Statement>)
    requires Stream(toks) && cur < |toks|
    ensures r.Done? ==> r.next == cur + 5 && r.next < |toks|
    ensures r.Failed? ==> cur <= r.at < |toks|
  {
    match Consume(toks, cur, IDENTIFIER, ExpectedActorName)
    case Failed(e, at) => Failed(e, at)
    case Done(left, c1) =>
      match ArrowAt(toks, c1)
      case Failed(e, at) => Failed(e, at)
      case Done(arrow, c2) =>
        match Consume(toks, c2, IDENTIFIER, ExpectedActorName)
        case Failed(e, at) => Failed(e, at)
        case Done(right, c3) =>
          match Consume(toks, c3, EQUAL, ExpectedEquals)
          case Failed(e, at) => Failed(e, at)
          case Done(_, c4) =>
            match Consume(toks, c4, STRING, ExpectedString)
            case Failed(e, at) => Failed(e, at)
            case Done(value, c5) =>
              Done(ActionDeclaration(Text(src, left), Text(src, right), arrow, Text(src, value)), c5)
  }

  /** One statement with its closing semicolon. */
  function StatementAt(src: string, toks: seq<Token>, cur: nat): (r: Attempt<Statement>)
    requires Stream(toks) && cur < |toks|
    ensures r.Done? ==> cur < r.next < |toks|
    ensures r.Failed? ==> cur <= r.at < |toks|
  {
    var body :=
      match Peek(toks, cur).kind
      case ACTOR => ActorRest(src, toks, Advance(toks, cur).1)
      case ACTION => ActionRest(src, toks, Advance(toks, cur).1)
      case _ => Failed(ExpectedDeclaration, cur);
    match body
    case Failed(e, at) => Failed(e, at)
    case Done(stmt, c) =>
      match Consume(toks, c, SEMICOLON, ExpectedSemicolon)
      case Failed(e, at) => Failed(e, at)
      case Done(_, next) => Done(stmt, next)
  }

  /** Where recovery may stop: at EOF, just after a semicolon, or on a keyword
      that begins a statement. */
  predicate Boundary(toks: seq<Token>, p: nat)
    requires p < |toks|
  {
    || IsAtEnd(toks, p)
    || (p > 0 && toks[p - 1].kind == SEMICOLON)
    || toks[p].kind in {ACTOR, ACTION}
  }

  /** The loop of `synchronize`: skips tokens until a boundary. */
  function SyncLoop(toks: seq<Token>, cur: nat): (r: nat)
    requires Stream(toks) && cur < |toks|
    decreases |toks| - cur
    ensures cur <= r < |toks| && Boundary(toks, r)
    ensures forall p | cur <= p < r :: !Boundary(toks, p)
  {
    if IsAtEnd(toks, cur) then cur
    else if Previous(toks, cur).Some? && Previous(toks, cur).value.kind == SEMICOLON then cur
    else if Peek(toks, cur).kind in {ACTION, ACTOR} then cur
    else SyncLoop(toks, Advance(toks, cur).1)
  }

  /** Error recovery: one unconditional step, then on to the first boundary. */
  function Synchronize(toks: seq<Token>, cur: nat): (r: nat)
    requires Stream(toks) && cur < |toks|
    ensures r < |toks| && Boundary(toks, r)
    ensures toks[cur].kind == EOF ==> r == cur
    ensures toks[cur].kind != EOF ==> cur < r && forall p | cur < p < r :: !Boundary(toks, p)
  {
    SyncLoop(toks, Advance(toks, cur).1)
  }

  /** The parse loop from `cur`: statements that parse completely are kept
      in order, and a failed one is skipped by recovery. */
  function ParseFrom(src: string, toks: seq<Token>, cur: nat): (r: seq<Statement>)
    requires Stream(toks) && cur < |toks|
    decreases |toks| - cur
  {
    if IsAtEnd(toks, cur) then []
    else
      match StatementAt(src, toks, cur)
      case Done(stmt, next) => [stmt] + ParseFrom(src, toks, next)
      case Failed(_, at) => ParseFrom(src, toks, Synchronize(toks, at))
  }

  function Parse(src: string, toks: seq<Token>): (r: seq<Statement>)
    requires Stream(toks)
  {
    ParseFrom(src, toks, 0)
  }
}

=== FILE: parser_examples.dfy ===
/** The parser on three token lists. Each list is written out by hand as
    the tokens the scanner's rules give for the source text beside it. */
module ParserExamples {
  import opened Scanner
  import opened Ast
  import opened Parser
  import opened ParserLemmas

  /** Names and values are the source text under the token spans; the
      string value leaves out its quotes. */
  lemma ActorExample(src: string, toks: seq<Token>)
    requires src == "actor u = \"string\";"
    requires toks == [ Token(ACTOR, 1, 0, 5), Token(IDENTIFIER, 1, 6, 7), Token(EQUAL, 1, 8, 9)
                     , Token(STRING, 1, 11, 17), Token(SEMICOLON, 1, 18, 19), Token(EOF, 1, 19, 20) ]
    ensures Parse(src, toks) == [ActorDeclaration("u", "string")]
  {
    ActorDeclared(src, toks);
    ParseStep(src, toks, 0);
  }

  lemma ActorDeclared(src: string, toks: seq<Token>)
    requires src == "actor u = \"string\";"
    requires toks == [ Token(ACTOR, 1, 0, 5), Token(IDENTIFIER, 1, 6, 7), Token(EQUAL, 1, 8, 9)
                     , Token(STRING, 1, 11, 17), Token(SEMICOLON, 1, 18, 19), Token(EOF, 1, 19, 20) ]
    ensures Complete(toks, 0) && Declared(src, toks, 0) == ActorDeclaration("u", "string")
  {
    assert Matched(toks, 0, ActorRule) == 5;
    SliceIs(src, 6, "u");
    SliceIs(src, 11, "string");
  }

  /** The first statement lacks its left actor, so it fails on `->`;
      recovery skips to just after its semicolon, and only the second
      statement is returned. */
  lemma RecoveryExample(src: string, toks: seq<Token>)
    requires src == "action -> B = \"x\"; action A -> B = \"x\";"
    requires toks == RecoveryTokens
    ensures Parse(src, toks) == [ActionDeclaration("A", "B", RIGHT, "x")]
  {
    RecoveryStart(src, toks);
    RecoverySync(toks);
    RecoveryResume(src, toks);
  }

  const RecoveryTokens: seq<Token> :=
    [ Token(ACTION, 1, 0, 6), Token(RIGHT_ARROW, 1, 7, 9), Token(IDENTIFIER, 1, 10, 11)
    , Token(EQUAL, 1, 12, 13), Token(STRING, 1, 15, 16), Token(SEMICOLON, 1, 17, 18)
    , Token(ACTION, 1, 19, 25), Token(IDENTIFIER, 1, 26, 27), Token(RIGHT_ARROW, 1, 28, 30)
    , Token(IDENTIFIER, 1, 31, 32), Token(EQUAL, 1, 33, 34), Token(STRING, 1, 36, 37)
    , Token(SEMICOLON, 1, 38, 39), Token(EOF, 1, 39, 40) ]

  lemma RecoveryStart(src: string, toks: seq<Token>)
    requires toks == RecoveryTokens
    ensures !Complete(toks, 0) && Breaks(toks, 0) == 1
    ensures ParseFrom(src, toks, 0) == ParseFrom(src, toks, Synchronize(toks, 1))
  {
    assert Matched(toks, 0, ActionRule) == 1;
    ParseStep(src, toks, 0);
  }

  lemma RecoverySync(toks: seq<Token>)
    requires toks == RecoveryTokens
    ensures Synchronize(toks, 1) == 6
  {
    assert Boundary(toks, 6);
  }

  lemma RecoveryResume(src: string, toks: seq<Token>)
    requires src == "action -> B = \"x\"; action A -> B = \"x\";"
    requires toks == RecoveryTokens
    ensures ParseFrom(src, toks, 6) == [ActionDeclaration("A", "B", RIGHT, "x")]
  {
    RecoveryDeclared(src, toks);
    ParseStep(src, toks, 6);
  }

  lemma RecoveryDeclared(src: string, toks: seq<Token>)
    requires src == "action -> B = \"x\"; action A -> B = \"x\";"
    requires toks == RecoveryTokens
    ensures Complete(toks, 6) && Declared(src, toks, 6) == ActionDeclaration("A", "B", RIGHT, "x")
  {
    assert Matched(toks, 6, ActionRule) == 7;
    RecoveryTexts(src, toks);
  }

  lemma RecoveryTexts(src: string, toks: seq<Token>)
    requires src == "action -> B = \"x\"; action A -> B = \"x\";"
    requires toks == RecoveryTokens
    ensures Text(src, toks[7]) == "A" && Text(src, toks[9]) == "B" && Text(src, toks[11]) == "x"
  {
    SliceIs(src, 26, "A");
    SliceIs(src, 31, "B");
    SliceIs(src, 36, "x");
  }

  /** The second `actor` breaks the first statement; the unconditional step
      of recovery then skips that keyword, so the well-formed statement after
      it is lost as well. */
  lemma LostStatementExample(src: string, toks: seq<Token>)
    requires toks == LostTokens
    ensures Complete(toks, 1)
    ensures Parse(src, toks) == []
  {
    LostStart(src, toks);
    LostSync(toks);
  }

  /** The tokens of `actor actor A = "a";`. */
  const LostTokens: seq<Token> :=
    [ Token(ACTOR, 1, 0, 5), Token(ACTOR, 1, 6, 11), Token(IDENTIFIER, 1, 12, 13)
    , Token(EQUAL, 1, 14, 15), Token(STRING, 1, 17, 18), Token(SEMICOLON, 1, 19, 20)
    , Token(EOF, 1, 20, 21) ]

  lemma LostStart(src: string, toks: seq<Token>)
    requires toks == LostTokens
    ensures Complete(toks, 1) && !Complete(toks, 0) && Breaks(toks, 0) == 1
    ensures ParseFrom(src, toks, 0) == ParseFrom(src, toks, Synchronize(toks, 1))
  {
    assert Matched(toks, 0, ActorRule) == 1;
    assert Matched(toks, 1, ActorRule) == 5;
    ParseStep(src, toks, 0);
  }

  lemma LostSync(toks: seq<Token>)
    requires toks == LostTokens
    ensures Synchronize(toks, 1) == 6
  {
    assert Boundary(toks, 6);
  }

  /** Reads a slice of the source character by character. */
  lemma SliceIs(s: string, from: nat, t: string)
    requires from + |t| <= |s| && forall i | 0 <= i < |t| :: s[from + i] == t[i]
    ensures s[from..from + |t|] == t
  {
  }
}

=== FILE: parser_lemmas.dfy ===
/** The grammar the parser accepts, stated token by token, and what the
    parse loop makes of a token list: only complete statements, in order,
    and every statement of a well-formed program. */
module ParserLemmas {
  import opened Base
  import opened Scanner
  import opened Ast
  import opened Parser

  /** One position of a grammar rule: a token kind, or either arrow. */
  datatype Want = Kind(kind: TokenType) | AnyArrow

  predicate Fits(k: TokenType, w: Want)
  {
    match w
    case Kind(x) => k == x
    case AnyArrow => k == RIGHT_ARROW || k == LEFT_ARROW
  }

  const ActorRule: seq<Want> :=
    [Kind(ACTOR), Kind(IDENTIFIER), Kind(EQUAL), Kind(STRING), Kind(SEMICOLON)]

  const ActionRule: seq<Want> :=
    [Kind(ACTION), Kind(IDENTIFIER), AnyArrow, Kind(IDENTIFIER), Kind(EQUAL), Kind(STRING), Kind(SEMICOLON)]

  /** The rule a statement starting with a token of kind `first` follows. */
  function Rule(first: TokenType): (r: seq<Want>)
  {
    if first == ACTION then ActionRule else ActorRule
  }

  /** How many leading positions of `rule` the tokens from `from` fit. */
  function Matched(toks: seq<Token>, from: nat, rule: seq<Want>): (m: nat)
    ensures m <= |rule| && (m > 0 ==> from + m <= |toks|)
    ensures forall i | 0 <= i < m :: Fits(toks[from + i].kind, rule[i])
    ensures m < |rule| ==> from + m >= |toks| || !Fits(toks[from + m].kind, rule[m])
  {
    MatchedFrom(toks, from, rule, 0)
  }

  function MatchedFrom(toks: seq<Token>, from: nat, rule: seq<Want>, i: nat): (m: nat)
    requires i <= |rule| && (i > 0 ==> from + i <= |toks|)
    requires forall k | 0 <= k < i :: Fits(toks[from + k].kind, rule[k])
    decreases |rule| - i
    ensures i <= m <= |rule| && (m > 0 ==> from + m <= |toks|)
    ensures forall k | 0 <= k < m :: Fits(toks[from + k].kind, rule[k])
    ensures m < |rule| ==> from + m >= |toks| || !Fits(toks[from + m].kind, rule[m])
  {
    if i < |rule| && from + i < |toks| && Fits(toks[from + i].kind, rule[i]) then MatchedFrom(toks, from, rule, i + 1)
    else i
  }

  /** The error thrown when the token for `w` is missing. */
  function Expected(w: Want): (r: ParseError)
  {
    match w
    case AnyArrow => ExpectedArrow
    case Kind(IDENTIFIER) => ExpectedActorName
    case Kind(EQUAL) => ExpectedEquals
    case Kind(STRING) => ExpectedString
    case Kind(SEMICOLON) => ExpectedSemicolon
    case Kind(_) => ExpectedDeclaration
  }

  /** A complete statement starts at `p`. */
  predicate Complete(toks: seq<Token>, p: nat)
  {
    && p < |toks|
    && toks[p].kind in {ACTOR, ACTION}
    && Matched(toks, p, Rule(toks[p].kind)) == |Rule(toks[p].kind)|
  }

  /** The statement a complete token group stands for: names and value are
      the source text of the IDENTIFIER and STRING tokens. */
  function Declared(src: string, toks: seq<Token>, p: nat): (r: Statement)
    requires Complete(toks, p)
  {
    if toks[p].kind == ACTION then
      ActionDeclaration(Text(src, toks[p + 1]), Text(src, toks[p + 3]),
                        if toks[p + 2].kind == RIGHT_ARROW then RIGHT else LEFT, Text(src, toks[p + 5]))
    else ActorDeclaration(Text(src, toks[p + 1]), Text(src, toks[p + 3]))
  }

  /** A statement parses exactly when its tokens follow its rule to the end;
      otherwise it fails at the first token that breaks the rule, with the
      error for what the rule wanted there. */
  lemma StatementShape(src: string, toks: seq<Token>, cur: nat)
    requires Stream(toks) && cur < |toks|
    ensures var r := StatementAt(src, toks, cur);
      if toks[cur].kind !in {ACTOR, ACTION} then r == Failed(ExpectedDeclaration, cur)
      else
        var rule := Rule(toks[cur].kind);
        var m := Matched(toks, cur, rule);
        && (r.Done? <==> m == |rule|)
        && (r.Done? ==> Complete(toks, cur) && r.next == cur + |rule| && r.value == Declared(src, toks, cur))
        && (r.Failed? ==> 0 < m < |rule| && r.at == cur + m && r.error == Expected(rule[m]))
  {
    if toks[cur].kind == ACTOR {
      ActorShape(src, toks, cur);
    } else if toks[cur].kind == ACTION {
      ActionShape(src, toks, cur);
    }
  }

  lemma ActorShape(src: string, toks: seq<Token>, cur: nat)
    requires Stream(toks) && cur < |toks| && toks[cur].kind == ACTOR
    ensures var r := StatementAt(src, toks, cur);
      var m := Matched(toks, cur, ActorRule);
      && (r.Done? <==> m == 5)
      && (r.Done? ==> r.next == cur + 5 && r.value == Declared(src, toks, cur))
      && (r.Failed? ==> 0 < m < 5 && r.at == cur + m && r.error == Expected(ActorRule[m]))
  {
    if Matched(toks, cur, ActorRule) == 5 {
      ActorComplete(src, toks, cur);
    } else {
      ActorBroken(src, toks, cur);
    }
  }

  lemma ActorComplete(src: string, toks: seq<Token>, cur: nat)
    requires Stream(toks) && cur < |toks| && toks[cur].kind == ACTOR
    requires Matched(toks, cur, ActorRule) == 5
    ensures StatementAt(src, toks, cur) == Done(Declared(src, toks, cur), cur + 5)
  {
  }

  lemma ActorBroken(src: string, toks: seq<Token>, cur: nat)
    requires Stream(toks) && cur < |toks| && toks[cur].kind == ACTOR
    requires Matched(toks, cur, ActorRule) < 5
    ensures var m := Matched(toks, cur, ActorRule);
      0 < m && StatementAt(src, toks, cur) == Failed(Expected(ActorRule[m]), cur + m)
  {
    var m := Matched(toks, cur, ActorRule);
    if m == 1 {
      assert toks[cur + 1].kind != IDENTIFIER;
    } else if m == 2 {
      assert toks[cur + 2].kind != EQUAL;
    } else if m == 3 {
      assert toks[cur + 3].kind != STRING;
    } else if m == 4 {
      assert toks[cur + 4].kind != SEMICOLON;
    }
  }

  lemma ActionShape(src: string, toks: seq<Token>, cur: nat)
    requires Stream(toks) && cur < |toks| && toks[cur].kind == ACTION
    ensures var r := StatementAt(src, toks, cur);
      var m := Matched(toks, cur, ActionRule);
      && (r.Done? <==> m == 7)
      && (r.Done? ==> r.next == cur + 7 && r.value == Declared(src, toks, cur))
      && (r.Failed? ==> 0 < m < 7 && r.at == cur + m && r.error == Expected(ActionRule[m]))
  {
    var m := Matched(toks, cur, ActionRule);
    if m == 7 {
      ActionComplete(src, toks, cur);
    } else {
      ActionBroken(src, toks, cur);
    }
  }

  lemma ActionComplete(src: string, toks: seq<Token>, cur: nat)
    requires Stream(toks) && cur < |toks| && toks[cur].kind == ACTION
    requires Matched(toks, cur, ActionRule) == 7
    ensures StatementAt(src, toks, cur) == Done(Declared(src, toks, cur), cur + 7)
  {
    assert Fits(toks[cur + 2].kind, AnyArrow);
  }

  lemma ActionBroken(src: string, toks: seq<Token>, cur: nat)
    requires Stream(toks) && cur < |toks| && toks[cur].kind == ACTION
    requires Matched(toks, cur, ActionRule) < 7
    ensures var m := Matched(toks, cur, ActionRule);
      0 < m && StatementAt(src, toks, cur) == Failed(Expected(ActionRule[m]), cur + m)
  {
    if Matched(toks, cur, ActionRule) <= 3 {
      ActionBrokenEarly(src, toks, cur);
    } else {
      ActionBrokenLate(src, toks, cur);
    }
  }

  lemma ActionBrokenEarly(src: string, toks: seq<Token>, cur: nat)
    requires Stream(toks) && cur < |toks| && toks[cur].kind == ACTION
    requires Matched(toks, cur, ActionRule) <= 3
    ensures var m := Matched(toks, cur, ActionRule);
      0 < m && StatementAt(src, toks, cur) == Failed(Expected(ActionRule[m]), cur + m)
  {
    var m := Matched(toks, cur, ActionRule);
    if m == 1 {
      assert toks[cur + 1].kind != IDENTIFIER;
    } else if m == 2 {
      assert !Fits(toks[cur + 2].kind, AnyArrow);
    } else if m == 3 {
      assert toks[cur + 3].kind != IDENTIFIER;
    }
  }

  lemma ActionBrokenLate(src: string, toks: seq<Token>, cur: nat)
    requires Stream(toks) && cur < |toks| && toks[cur].kind == ACTION
    requires 3 < Matched(toks, cur, ActionRule) < 7
    ensures var m := Matched(toks, cur, ActionRule);
      StatementAt(src, toks, cur) == Failed(Expected(ActionRule[m]), cur + m)
  {
    var m := Matched(toks, cur, ActionRule);
    assert Fits(toks[cur + 2].kind, AnyArrow);
    if m == 4 {
      assert toks[cur + 4].kind != EQUAL;
    } else if m == 5 {
      assert toks[cur + 5].kind != STRING;
    } else {
      assert toks[cur + 6].kind != SEMICOLON;
    }
  }

  /** Where a statement starting at `p` stops matching its rule. */
  function Breaks(toks: seq<Token>, p: nat): (r: nat)
  {
    if p < |toks| && toks[p].kind in {ACTOR, ACTION} then p + Matched(toks, p, Rule(toks[p].kind)) else p
  }

  /** One turn of the parse loop: a complete statement is kept and parsing
      resumes after it; anything else is dropped and parsing resumes where
      recovery from the breaking token stops. */
  lemma ParseStep(src: string, toks: seq<Token>, cur: nat)
    requires Stream(toks) && cur < |toks| && toks[cur].kind != EOF
    ensures Complete(toks, cur) ==>
      && cur + |Rule(toks[cur].kind)| < |toks|
      && ParseFrom(src, toks, cur) == [Declared(src, toks, cur)] + ParseFrom(src, toks, cur + |Rule(toks[cur].kind)|)
    ensures !Complete(toks, cur) ==>
      && Breaks(toks, cur) < |toks|
      && cur < Synchronize(toks, Breaks(toks, cur))
      && ParseFrom(src, toks, cur) == ParseFrom(src, toks, Synchronize(toks, Breaks(toks, cur)))
  {
    StatementShape(src, toks, cur);
    if Complete(toks, cur) {
      ParseStepComplete(src, toks, cur);
    } else {
      ParseStepBroken(src, toks, cur);
    }
  }

  lemma ParseStepComplete(src: string, toks: seq<Token>, cur: nat)
    requires Stream(toks) && cur < |toks| && toks[cur].kind != EOF
    requires Complete(toks, cur)
    requires StatementAt(src, toks, cur) == Done(Declared(src, toks, cur), cur + |Rule(toks[cur].kind)|)
    ensures ParseFrom(src, toks, cur) == [Declared(src, toks, cur)] + ParseFrom(src, toks, cur + |Rule(toks[cur].kind)|)
  {
  }

  lemma ParseStepBroken(src: string, toks: seq<Token>, cur: nat)
    requires Stream(toks) && cur < |toks| && toks[cur].kind != EOF
    requires StatementAt(src, toks, cur).Failed? && StatementAt(src, toks, cur).at == Breaks(toks, cur)
    ensures Breaks(toks, cur) < |toks| && cur < Synchronize(toks, Breaks(toks, cur))
    ensures ParseFrom(src, toks, cur) == ParseFrom(src, toks, Synchronize(toks, Breaks(toks, cur)))
  {
  }

  /** `ps` lists where each of `stmts` was declared: complete groups at or
      after `cur`, in input order and not overlapping. */
  predicate Witnessed(src: string, toks: seq<Token>, cur: nat, ps: seq<nat>, stmts: seq<Statement>)
  {
    && |ps| == |stmts|
    && forall i | 0 <= i < |ps| ::
      && cur <= ps[i] && Complete(toks, ps[i])
      && Declared(src, toks, ps[i]) == stmts[i]
      && (i + 1 < |ps| ==> ps[i] + |Rule(toks[ps[i]].kind)| <= ps[i + 1])
  }

  lemma WitnessedCons(src: string, toks: seq<Token>, cur: nat, n: nat, ps: seq<nat>, stmts: seq<Statement>)
    requires Complete(toks, cur) && n == cur + |Rule(toks[cur].kind)|
    requires Witnessed(src, toks, n, ps, stmts)
    ensures Witnessed(src, toks, cur, [cur] + ps, [Declared(src, toks, cur)] + stmts)
  {
    var ps', stmts' := [cur] + ps, [Declared(src, toks, cur)] + stmts;
    forall i | 0 <= i < |ps'|
      ensures && cur <= ps'[i] && Complete(toks, ps'[i])
              && Declared(src, toks, ps'[i]) == stmts'[i]
              && (i + 1 < |ps'| ==> ps'[i] + |Rule(toks[ps'[i]].kind)| <= ps'[i + 1])
    {
      if i > 0 {
        assert ps'[i] == ps[i - 1] && stmts'[i] == stmts[i - 1];
      }
    }
  }

  /** Soundness of the parse loop: every statement it returns stands for a
      complete token group, and the groups come in input order without
      overlapping. */
  lemma {:induction false} ParseSound(src: string, toks: seq<Token>, cur: nat) returns (ps: seq<nat>)
    requires Stream(toks) && cur < |toks|
    decreases |toks| - cur
    ensures Witnessed(src, toks, cur, ps, ParseFrom(src, toks, cur))
  {
    if toks[cur].kind == EOF {
      return [];
    }
    ParseStep(src, toks, cur);
    if Complete(toks, cur) {
      var n := cur + |Rule(toks[cur].kind)|;
      var rest := ParseSound(src, toks, n);
      WitnessedCons(src, toks, cur, n, rest, ParseFrom(src, toks, n));
      ps := [cur] + rest;
    } else {
      var next := Synchronize(toks, Breaks(toks, cur));
      ps := ParseSound(src, toks, next);
    }
  }

  /** A well-formed program from `cur`: complete statements back to back up
      to EOF. */
  predicate Program(toks: seq<Token>, cur: nat)
    decreases |toks| - cur
  {
    && cur < |toks|
    && (toks[cur].kind == EOF || (Complete(toks, cur) && Program(toks, cur + |Rule(toks[cur].kind)|)))
  }

  /** The statements a well-formed program declares, read off its groups. */
  function Statements(src: string, toks: seq<Token>, cur: nat): (r: seq<Statement>)
    requires Program(toks, cur)
    decreases |toks| - cur
  {
    if toks[cur].kind == EOF then []
    else [Declared(src, toks, cur)] + Statements(src, toks, cur + |Rule(toks[cur].kind)|)
  }

  /** Completeness on well-formed input: the parser returns every statement. */
  lemma {:induction false} ParseProgram(src: string, toks: seq<Token>, cur: nat)
    requires Stream(toks) && Program(toks, cur)
    decreases |toks| - cur
    ensures ParseFrom(src, toks, cur) == Statements(src, toks, cur)
  {
    if toks[cur].kind != EOF {
      var n := cur + |Rule(toks[cur].kind)|;
      assert Complete(toks, cur) && Program(toks, n);
      ParseStep(src, toks, cur);
      ParseProgram(src, toks, n);
    }
  }

  /** On the scanner's output `isAtEnd` holds exactly at the last token, so
      the parse loop runs until then, and `peek` never shows an ERROR token. */
  lemma ScannedStream(src: string)
    ensures var toks := Scan(src).tokens;
      && Stream(toks)
      && forall cur | 0 <= cur < |toks| ::
           (Parser.IsAtEnd(toks, cur) <==> cur == |toks| - 1) && Parser.Peek(toks, cur).kind != ERROR
  {
  }

  /** `match` looks at the token under the cursor without moving; a token
      it accepts, other than EOF, is one `advance` then passes. */
  lemma MatchThenAdvance(toks: seq<Token>, cur: nat, kind: TokenType)
    requires Stream(toks) && cur < |toks| && kind != EOF
    ensures Parser.Match(toks, cur, kind) <==> toks[cur].kind == kind
    ensures Parser.Match(toks, cur, kind) ==> !Parser.IsAtEnd(toks, cur) && Parser.Advance(toks, cur) == (toks[cur], cur + 1)
  {
  }

  /** `parse` on a whole token list: only complete statements come out, in
      order, and on a well-formed program all of them do. */
  lemma ParseWhole(src: string, toks: seq<Token>) returns (ps: seq<nat>)
    requires Stream(toks)
    ensures Witnessed(src, toks, 0, ps, Parse(src, toks))
    ensures Program(toks, 0) ==> Parse(src, toks) == Statements(src, toks, 0)
  {
    ps := ParseSound(src, toks, 0);
    if Program(toks, 0) {
      ParseProgram(src, toks, 0);
    }
  }
}

=== FILE: render.dfy ===
/** The renderer (src/render/render.ts): a collection pass that fills an
    actor registry and an action list from the statements, then a layout
    pass that emits drawing calls for boxes, lifelines, labels and arrows.

    The canvas is replaced by a trace of drawing calls, coordinates are
    exact reals, and text measurement is a function passed in by the
    caller. */
module Render {
  import opened Base
  import opened Ast

  const SPACING: real := 100.0
  const HEIGHT: real := 80.0
  const PADDING: real := HEIGHT / 2.0
  const ACTION_SPACING_VERTICAL: real := 50.0
  const TIMELINE_LENGTH: real := 100.0
  const X: real := 0.0
  const Y: real := 0.0

  /** One drawing call. `Line` and `Arrow` stand for the helpers
      `drawLine` and `drawArrow`, whose strokes are not modelled. */
  datatype DrawOp =
    | StrokeRect(x: real, y: real, w: real, h: real)
    | FillText(text: string, x: real, y: real, maxWidth: real)
    | StrokeText(text: string, x: real, y: real, maxWidth: real)
    | Line(x1: real, y1: real, x2: real, y2: real)
    | Arrow(x1: real, y1: real, x2: real, y2: real)

  /** A registered actor: its layout index and the label drawn in its box. */
  datatype Actor = Actor(index: nat, value: string)

  /** The registry is a JavaScript `Map` from names to actors; iteration
      follows insertion order, so it is modelled as a list of entries. */
  datatype Entry = Entry(name: string, actor: Actor)
  type Registry = seq<Entry>

  /** No name is registered twice, as in any `Map`. */
  ghost predicate Distinct(reg: Registry)
  {
    forall i, j | 0 <= i < j < |reg| :: reg[i].name != reg[j].name
  }

  function FindFrom(reg: Registry, name: string, from: nat): (r: Option<nat>)
    requires from <= |reg|
    decreases |reg| - from
    ensures r.Some? ==> from <= r.value < |reg| && reg[r.value].name == name
  {
    if from == |reg| then None
    else if reg[from].name == name then Some(from)
    else FindFrom(reg, name, from + 1)
  }

  /** `FindFrom` stops at the first entry carrying the name, and finds
      nothing only when no entry from `from` on carries it. */
  lemma {:induction false} FindFromFirst(reg: Registry, name: string, from: nat)
    requires from <= |reg|
    decreases |reg| - from
    ensures var r := FindFrom(reg, name, from);
      (r.Some? ==> forall i | from <= i < r.value :: reg[i].name != name)
      && (r.None? <==> forall i | from <= i < |reg| :: reg[i].name != name)
  {
    if from < |reg| && reg[from].name != name {
      FindFromFirst(reg, name, from + 1);
    }
  }

  /** The position of `name` in iteration order, if registered. */
  function Find(reg: Registry, name: string): (r: Option<nat>)
    ensures r.Some? ==> r.value < |reg| && reg[r.value].name == name
  {
    FindFrom(reg, name, 0)
  }

  /** `Find` reports the first entry with the name, and nothing exactly
      when no entry has it. */
  lemma FindFirst(reg: Registry, name: string)
    ensures Find(reg, name).Some? ==> forall i | 0 <= i < Find(reg, name).value :: reg[i].name != name
    ensures Find(reg, name).None? <==> forall i | 0 <= i < |reg| :: reg[i].name != name
  {
    FindFromFirst(reg, name, 0);
  }

  /** `Map.prototype.get`. */
  function Get(reg: Registry, name: string): (r: Option<Actor>)
  {
    match Find(reg, name)
    case Some(i) => Some(reg[i].actor)
    case None => None
  }

  /** `Map.prototype.set`: a registered name keeps its position and gets the
      new actor; a new name goes to the end. */
  function Set(reg: Registry, name: string, actor: Actor): (r: Registry)
    ensures Find(reg, name).Some? ==> |r| == |reg|
    ensures Find(reg, name).None? ==> |r| == |reg| + 1 && r[|reg|] == Entry(name, actor)
    ensures forall i | 0 <= i < |reg| :: r[i] == if reg[i].name == name && Find(reg, name) == Some(i) then Entry(name, actor) else reg[i]
  {
    match Find(reg, name)
    case Some(i) => reg[i := Entry(name, actor)]
    case None => reg + [Entry(name, actor)]
  }

  /** What the collection pass accumulates. */
  datatype Collected = Collected(actors: Registry, actions: seq<Statement>)

  /** `actor`: the index is the registry size before the call, even when the
      name is already registered. */
  function DeclareActor(c: Collected, name: string, value: string): (r: Collected)
    ensures r.actions == c.actions
    ensures Get(r.actors, name) == Some(Actor(|c.actors|, value))
  {
    var reg := Set(c.actors, name, Actor(|c.actors|, value));
    FindFirst(c.actors, name);
    FindFirst(reg, name);
    c.(actors := reg)
  }

  /** `statement`: actor declarations go to the registry and action
      declarations to the action list. */
  function CollectStatement(c: Collected, stmt: Statement): (r: Collected)
  {
    match stmt
    case ActorDeclaration(name, value) => DeclareActor(c, name, value)
    case ActionDeclaration(_, _, _, _) => c.(actions := c.actions + [stmt])
  }

  /** The collection pass of `render`, statement by statement in order. */
  function Collect(stmts: seq<Statement>): (r: Collected)
    ensures forall k | 0 <= k < |r.actions| :: r.actions[k].ActionDeclaration?
  {
    if stmts == [] then Collected([], [])
    else CollectStatement(Collect(stmts[..|stmts| - 1]), stmts[|stmts| - 1])
  }

  /** `getBoxWidth`: `n` boxes with `n - 1` gaps of SPACING share `width`. */
  function BoxWidth(width: real, n: nat): (bw: real)
    requires n >= 1
    ensures (n as real) * bw + ((n - 1) as real) * SPACING == width
  {
    (width - ((n - 1) as real) * SPACING) / (n as real)
  }

  /** `boxBottomMid`: the middle of the bottom edge of the box at `index`. */
  function BoxBottomMid(width: real, n: nat, index: nat): (p: (real, real))
    requires n >= 1
  {
    var bw := BoxWidth(width, n);
    (X + (bw + SPACING) * (index as real) + bw / 2.0, Y + HEIGHT)
  }

  /** The box and the label of the `i`-th registered actor. */
  function BoxOps(reg: Registry, width: real, measure: string -> real, i: nat): (r: seq<DrawOp>)
    requires i < |reg|
  {
    var bw := BoxWidth(width, |reg|);
    var x := X + (i as real) * (bw + SPACING);
    var value := reg[i].actor.value;
    [StrokeRect(x, Y, bw, HEIGHT), FillText(value, x + (bw - measure(value)) / 2.0, Y + PADDING, bw - PADDING)]
  }

  /** The boxes of the first `n` registered actors, left to right. */
  function Boxes(reg: Registry, width: real, measure: string -> real, n: nat): (r: seq<DrawOp>)
    requires n <= |reg|
  {
    if n == 0 then [] else Boxes(reg, width, measure, n - 1) + BoxOps(reg, width, measure, n - 1)
  }

  /** `drawActors`: one box with its label per actor, in iteration order,
      each SPACING to the right of the previous one. */
  method DrawActors(reg: Registry, width: real, measure: string -> real) returns (ops: seq<DrawOp>)
    ensures ops == Boxes(reg, width, measure, |reg|)
  {
    var x := X;
    ops := [];
    var i := 0;
    while i < |reg|
      invariant i <= |reg|
      invariant ops == Boxes(reg, width, measure, i)
      invariant |reg| > 0 ==> x == X + (i as real) * (BoxWidth(width, |reg|) + SPACING)
    {
      var boxWidth := BoxWidth(width, |reg|);
      assert x + boxWidth + SPACING == X + ((i + 1) as real) * (boxWidth + SPACING);
      ghost var before := ops;
      var value := reg[i].actor.value;
      ops := ops + [StrokeRect(x, Y, boxWidth, HEIGHT)];
      var xText := x + (boxWidth - measure(value)) / 2.0;
      ops := ops + [FillText(value, xText, Y + PADDING, boxWidth - PADDING)];
      assert ops == before + BoxOps(reg, width, measure, i);
      x := x + boxWidth + SPACING;
      i := i + 1;
    }
  }

  /** The lifeline of the `i`-th registered actor, `length` long, hanging
      from the bottom middle of the box its stored index points at. */
  function LifelineOp(reg: Registry, width: real, length: real, i: nat): (r: DrawOp)
    requires i < |reg|
  {
    var (x, y) := BoxBottomMid(width, |reg|, reg[i].actor.index);
    Line(x, y, x, y + length)
  }

  /** The lifelines of the first `n` registered actors. */
  function Lifelines(reg: Registry, width: real, length: real, n: nat): (r: seq<DrawOp>)
    requires n <= |reg|
  {
    if n == 0 then [] else Lifelines(reg, width, length, n - 1) + [LifelineOp(reg, width, length, n - 1)]
  }

  /** `extendTimeline`: the timeline grows by TIMELINE_LENGTH and every
      actor's lifeline is drawn again at the new length. */
  method ExtendTimeline(reg: Registry, width: real, timelineLength: real) returns (length: real, ops: seq<DrawOp>)
    ensures length == timelineLength + TIMELINE_LENGTH
    ensures ops == Lifelines(reg, width, length, |reg|)
  {
    if timelineLength == 0.0 {
      length := TIMELINE_LENGTH;
    } else {
      length := timelineLength + TIMELINE_LENGTH;
    }
    ops := [];
    var i := 0;
    while i < |reg|
      invariant i <= |reg|
      invariant ops == Lifelines(reg, width, length, i)
    {
      var (x, y) := BoxBottomMid(width, |reg|, reg[i].actor.index);
      ops := ops + [Line(x, y, x, y + length)];
      i := i + 1;
    }
  }

  /** `check`: the registered actor, or nothing (the source throws
      "<name> is undefined"). */
  function Check(reg: Registry, name: string): (r: Option<Actor>)
  {
    Get(reg, name)
  }

  /** `check` fails exactly for names no entry carries, and otherwise
      returns the actor registered under the name. */
  lemma CheckRegistered(reg: Registry, name: string)
    ensures Check(reg, name).None? <==> forall i | 0 <= i < |reg| :: reg[i].name != name
    ensures Check(reg, name).Some? ==> exists i | 0 <= i < |reg| :: reg[i] == Entry(name, Check(reg, name).value)
  {
    FindFirst(reg, name);
  }

  /** `next`: where action `k` meets the lifeline of `name`. */
  function Next(reg: Registry, width: real, name: string, k: nat): (p: Option<(real, real)>)
    ensures p.Some? <==> Check(reg, name).Some?
    ensures p.Some? ==> p.value.1 == Y + HEIGHT + ACTION_SPACING_VERTICAL * ((k + 1) as real)
  {
    match Check(reg, name)
    case None => None
    case Some(actor) =>
      var (x, y) := BoxBottomMid(width, |reg|, actor.index);
      Some((x, y + ACTION_SPACING_VERTICAL * ((k + 1) as real)))
  }

  function Abs(r: real): (v: real)
  {
    if r < 0.0 then -r else r
  }

  function Min(a: real, b: real): (r: real)
  {
    if a <= b then a else b
  }

  /** The outcome of rendering: the whole trace, or the name that was not
      declared together with the calls made before the failure. */
  datatype RenderResult = Success(trace: seq<DrawOp>) | Failure(name: string, trace: seq<DrawOp>)

  /** Both actors of an action are registered. */
  predicate Defined(reg: Registry, a: Statement)
    requires a.ActionDeclaration?
  {
    Check(reg, a.leftActor).Some? && Check(reg, a.rightActor).Some?
  }

  /** The label and the arrow of action `k`, once both actors are known. */
  function ActionOps(reg: Registry, width: real, measure: string -> real, a: Statement, k: nat): (ops: seq<DrawOp>)
    requires a.ActionDeclaration? && Defined(reg, a)
    ensures |ops| == 2
  {
    var (x1, y1) := Next(reg, width, a.leftActor, k).value;
    var (x2, y2) := Next(reg, width, a.rightActor, k).value;
    var caption := StrokeText(a.value, Min(x1, x2) + (Abs(x2 - x1) - measure(a.value)) / 2.0, y1 - 3.0, Abs(x2 - x1));
    var arrow := if a.direction == RIGHT then Arrow(x1, y1, x2, y2) else Arrow(x2, y2, x1, y1);
    [caption, arrow]
  }

  /** The first action with an undefined actor, or the number of actions. */
  function FirstBroken(reg: Registry, actions: seq<Statement>, from: nat): (j: nat)
    requires from <= |actions|
    requires forall k | 0 <= k < |actions| :: actions[k].ActionDeclaration?
    decreases |actions| - from
    ensures from <= j <= |actions|
    ensures forall k | from <= k < j :: Defined(reg, actions[k])
    ensures j < |actions| ==> !Defined(reg, actions[j])
  {
    if from == |actions| || !Defined(reg, actions[from]) then from
    else FirstBroken(reg, actions, from + 1)
  }

  /** What the first `n` actions draw when all their actors are defined:
      action `k` redraws every lifeline at length `TIMELINE_LENGTH * (k + 1)`,
      then its label and its arrow. */
  function Blocks(reg: Registry, actions: seq<Statement>, width: real, measure: string -> real, n: nat): (r: seq<DrawOp>)
    requires n <= |actions|
    requires forall k | 0 <= k < n :: actions[k].ActionDeclaration? && Defined(reg, actions[k])
  {
    if n == 0 then []
    else
      Blocks(reg, actions, width, measure, n - 1)
      + Lifelines(reg, width, TIMELINE_LENGTH * (n as real), |reg|)
      + ActionOps(reg, width, measure, actions[n - 1], n - 1)
  }

  /** The outcome of the layout of the actions, stated without the loop:
      every action is drawn when all actors are defined; otherwise the first
      action with an undefined actor gets its lifelines and nothing else, and
      the name reported is its left actor if that one is undefined and its
      right actor otherwise. */
  function Layout(reg: Registry, actions: seq<Statement>, width: real, measure: string -> real): (r: RenderResult)
    requires forall k | 0 <= k < |actions| :: actions[k].ActionDeclaration?
  {
    Outcome(reg, actions, width, measure, FirstBroken(reg, actions, 0))
  }

  /** The layout once `j` is known to be the first broken action. */
  function Outcome(reg: Registry, actions: seq<Statement>, width: real, measure: string -> real, j: nat): (r: RenderResult)
    requires j <= |actions|
    requires forall k | 0 <= k < j :: actions[k].ActionDeclaration? && Defined(reg, actions[k])
    requires j < |actions| ==> actions[j].ActionDeclaration?
  {
    if j == |actions| then Success(Blocks(reg, actions, width, measure, j))
    else
      Failure(Culprit(reg, actions[j]), Blocks(reg, actions, width, measure, j) + Lifelines(reg, width, TIMELINE_LENGTH * ((j + 1) as real), |reg|))
  }

  /** The name `drawActions` reports for an action: `check` runs on the left
      actor first. */
  function Culprit(reg: Registry, a: Statement): (r: string)
    requires a.ActionDeclaration?
  {
    if Check(reg, a.leftActor).None? then a.leftActor else a.rightActor
  }

  /** The layout when action `k` is the first with an undefined actor. */
  lemma LayoutBroken(reg: Registry, actions: seq<Statement>, width: real, measure: string -> real, k: nat)
    requires forall i | 0 <= i < |actions| :: actions[i].ActionDeclaration?
    requires k < |actions| && !Defined(reg, actions[k])
    requires forall i | 0 <= i < k :: Defined(reg, actions[i])
    ensures Layout(reg, actions, width, measure) == Outcome(reg, actions, width, measure, k)
  {
    var j := FirstBroken(reg, actions, 0);
    assert j == k;
  }

  /** The layout when every action has both actors defined. */
  lemma LayoutComplete(reg: Registry, actions: seq<Statement>, width: real, measure: string -> real)
    requires forall i | 0 <= i < |actions| :: actions[i].ActionDeclaration? && Defined(reg, actions[i])
    ensures Layout(reg, actions, width, measure) == Outcome(reg, actions, width, measure, |actions|)
  {
  }

  lemma BlocksNext(reg: Registry, actions: seq<Statement>, width: real, measure: string -> real, k: nat)
    requires k < |actions|
    requires forall i | 0 <= i <= k :: actions[i].ActionDeclaration? && Defined(reg, actions[i])
    ensures Blocks(reg, actions, width, measure, k + 1)
      == Blocks(reg, actions, width, measure, k)
      + Lifelines(reg, width, TIMELINE_LENGTH * ((k + 1) as real), |reg|)
      + ActionOps(reg, width, measure, actions[k], k)
  {
  }

  /** The body of `drawActions` for action `k` once both actors passed
      `check`: the label centred between the two lifelines just above the
      arrow, then the arrow in the declared direction. */
  method DrawAction(reg: Registry, width: real, measure: string -> real, a: Statement, k: nat) returns (ops: seq<DrawOp>)
    requires a.ActionDeclaration? && Defined(reg, a)
    ensures ops == ActionOps(reg, width, measure, a, k)
  {
    ops := [];
    var (x1, y1) := Next(reg, width, a.leftActor, k).value;
    var (x2, y2) := Next(reg, width, a.rightActor, k).value;
    var textWidth := measure(a.value);
    var padding := Abs(x2 - x1) - textWidth;
    ops := ops + [StrokeText(a.value, Min(x1, x2) + padding / 2.0, y1 - 3.0, Abs(x2 - x1))];
    match a.direction
    case RIGHT => ops := ops + [Arrow(x1, y1, x2, y2)];
    case LEFT => ops := ops + [Arrow(x2, y2, x1, y1)];
  }

  /** The callback `drawActions` runs for action `k`: the timeline is
      extended, both actors are checked (left first), and the label and
      arrow are drawn. A failed check is returned as the name at fault. */
  method ActionStep(reg: Registry, actions: seq<Statement>, width: real, measure: string -> real,
                    k: nat, timelineLength: real, ops: seq<DrawOp>)
    returns (length: real, trace: seq<DrawOp>, undefined: Option<string>)
    requires k < |actions|
    requires forall i | 0 <= i < |actions| :: actions[i].ActionDeclaration?
    requires forall i | 0 <= i < k :: Defined(reg, actions[i])
    requires timelineLength == TIMELINE_LENGTH * (k as real)
    requires ops == Blocks(reg, actions, width, measure, k)
    ensures length == TIMELINE_LENGTH * ((k + 1) as real)
    ensures undefined.None? <==> Defined(reg, actions[k])
    ensures undefined.None? ==> trace == Blocks(reg, actions, width, measure, k + 1)
    ensures undefined.Some? ==> Failure(undefined.value, trace) == Outcome(reg, actions, width, measure, k)
  {
    var a := actions[k];
    var lines;
    length, lines := ExtendTimeline(reg, width, timelineLength);
    trace := ops + lines;
    if Check(reg, a.leftActor).None? {
      return length, trace, Some(a.leftActor);
    }
    if Check(reg, a.rightActor).None? {
      return length, trace, Some(a.rightActor);
    }
    var drawn := DrawAction(reg, width, measure, a, k);
    BlocksNext(reg, actions, width, measure, k);
    trace := trace + drawn;
    undefined := None;
  }

  /** `drawActions`: the actions in order, each one step further down the
      lifelines; the first undefined actor stops the loop. */
  method DrawActions(reg: Registry, actions: seq<Statement>, width: real, measure: string -> real)
    returns (r: RenderResult)
    requires forall k | 0 <= k < |actions| :: actions[k].ActionDeclaration?
    ensures r == Layout(reg, actions, width, measure)
  {
    var timelineLength := 0.0;
    var ops := [];
    var k := 0;
    while k < |actions|
      invariant k <= |actions|
      invariant forall i | 0 <= i < k :: Defined(reg, actions[i])
      invariant timelineLength == TIMELINE_LENGTH * (k as real)
      invariant ops == Blocks(reg, actions, width, measure, k)
      decreases |actions| - k
    {
      var undefined;
      timelineLength, ops, undefined := ActionStep(reg, actions, width, measure, k, timelineLength, ops);
      if undefined.Some? {
        LayoutBroken(reg, actions, width, measure, k);
        return Failure(undefined.value, ops);
      }
      k := k + 1;
    }
    LayoutComplete(reg, actions, width, measure);
    return Success(ops);
  }

  /** `render`: the collection pass, then the boxes, then the actions. */
  method Render(stmts: seq<Statement>, width: real, measure: string -> real) returns (r: RenderResult)
    ensures var c := Collect(stmts);
      var boxes := Boxes(c.actors, width, measure, |c.actors|);
      match Layout(c.actors, c.actions, width, measure)
      case Success(trace) => r == Success(boxes + trace)
      case Failure(name, trace) => r == Failure(name, boxes + trace)
  {
    var c := Collected([], []);
    var i := 0;
    while i < |stmts|
      invariant i <= |stmts|
      invariant c == Collect(stmts[..i])
    {
      assert stmts[..i + 1][..i] == stmts[..i];
      c := CollectStatement(c, stmts[i]);
      i := i + 1;
    }
    assert stmts[..i] == stmts;
    var boxes := DrawActors(c.actors, width, measure);
    r := DrawActions(c.actors, c.actions, width, measure);
    match r
    case Success(trace) => r := Success(boxes + trace);
    case Failure(name, trace) => r := Failure(name, boxes + trace);
  }
}

=== FILE: render_lemmas.dfy ===
/** Properties of the renderer: what the collection pass builds, where the
    boxes and lifelines sit, and when the layout stops. */
module RenderLemmas {
  import opened Base
  import opened Ast
  import opened Render

  // ---------------------------------------------------------------------
  // Registry laws

  /** The names a registry holds. */
  ghost function Names(reg: Registry): (r: set<string>)
  {
    set i | 0 <= i < |reg| :: reg[i].name
  }

  /** `check` succeeds exactly for the names the registry holds. */
  lemma CheckNames(reg: Registry, name: string)
    ensures Check(reg, name).Some? <==> name in Names(reg)
  {
    CheckRegistered(reg, name);
    if name in Names(reg) {
      var i :| 0 <= i < |reg| && reg[i].name == name;
    }
  }

  /** `Map.prototype.set` on a name adds that name and nothing else, keeps
      the names distinct, and grows the map only for a new name. */
  lemma SetNames(reg: Registry, name: string, actor: Actor)
    requires Distinct(reg)
    ensures var r := Set(reg, name, actor);
      Distinct(r) && Names(r) == Names(reg) + {name}
      && |r| == if name in Names(reg) then |reg| else |reg| + 1
  {
    var r := Set(reg, name, actor);
    FindFirst(reg, name);
    CheckNames(reg, name);
    if Find(reg, name).None? {
      assert forall i | 0 <= i < |reg| :: r[i] == reg[i];
      assert r[|reg|].name == name;
    }
    assert forall i | 0 <= i < |r| :: r[i].name == if i < |reg| then reg[i].name else name;
  }

  /** `Map.prototype.set` on one name leaves `get` on every other name as it
      was. */
  lemma SetOther(reg: Registry, name: string, actor: Actor, other: string)
    requires other != name
    ensures Get(Set(reg, name, actor), other) == Get(reg, other)
  {
    var r := Set(reg, name, actor);
    FindFirst(reg, other);
    FindFirst(r, other);
    FindFirst(reg, name);
    if Find(reg, other).Some? {
      assert r[Find(reg, other).value] == reg[Find(reg, other).value];
    }
  }

  /** `Map.prototype.get` after `set` on the same name returns what was set;
      with `SetOther` this is the map's get/set law. */
  lemma GetSet(reg: Registry, name: string, actor: Actor)
    ensures Get(Set(reg, name, actor), name) == Some(actor)
  {
    FindFirst(reg, name);
    FindFirst(Set(reg, name, actor), name);
  }

  // ---------------------------------------------------------------------
  // The collection pass

  /** `statement`: an actor declaration changes only the registry, and only
      under its own name; an action declaration only appends to the action
      list. */
  lemma CollectStatementCases(c: Collected, stmt: Statement)
    ensures var r := CollectStatement(c, stmt);
      stmt.ActorDeclaration? ==>
        && r.actions == c.actions
        && Get(r.actors, stmt.name) == Some(Actor(|c.actors|, stmt.value))
        && forall other | other != stmt.name :: Get(r.actors, other) == Get(c.actors, other)
    ensures var r := CollectStatement(c, stmt);
      stmt.ActionDeclaration? ==> r.actors == c.actors && r.actions == c.actions + [stmt]
  {
    if stmt.ActorDeclaration? {
      var r := CollectStatement(c, stmt);
      forall other | other != stmt.name
        ensures Get(r.actors, other) == Get(c.actors, other)
      {
        SetOther(c.actors, stmt.name, Actor(|c.actors|, stmt.value), other);
      }
    }
  }

  /** The action declarations of a program, in order. */
  function Actions(stmts: seq<Statement>): (r: seq<Statement>)
  {
    if stmts == [] then []
    else (if stmts[0].ActionDeclaration? then [stmts[0]] else []) + Actions(stmts[1..])
  }

  lemma {:induction false} ActionsSnoc(p: seq<Statement>, s: Statement)
    ensures Actions(p + [s]) == Actions(p) + (if s.ActionDeclaration? then [s] else [])
  {
    if p != [] {
      assert (p + [s])[1..] == p[1..] + [s];
      ActionsSnoc(p[1..], s);
    }
  }

  /** The names a program declares as actors. */
  ghost function DeclaredNames(stmts: seq<Statement>): (r: set<string>)
  {
    set i | 0 <= i < |stmts| && stmts[i].ActorDeclaration? :: stmts[i].name
  }

  lemma DeclaredSnoc(p: seq<Statement>, s: Statement)
    ensures DeclaredNames(p + [s]) == DeclaredNames(p) + (if s.ActorDeclaration? then {s.name} else {})
  {
    var q := p + [s];
    assert forall i | 0 <= i < |p| :: q[i] == p[i];
    if s.ActorDeclaration? {
      assert q[|p|].name == s.name;
    }
  }

  /** The action list `render` collects is the program's action
      declarations in order. */
  lemma {:induction false} CollectActions(stmts: seq<Statement>)
    ensures Collect(stmts).actions == Actions(stmts)
  {
    if stmts != [] {
      var p := stmts[..|stmts| - 1];
      var s := stmts[|stmts| - 1];
      assert stmts == p + [s];
      CollectActions(p);
      ActionsSnoc(p, s);
    }
  }

  /** The registry holds each declared name once, and nothing else. */
  lemma {:induction false} CollectRegistry(stmts: seq<Statement>)
    ensures var reg := Collect(stmts).actors;
      Distinct(reg) && Names(reg) == DeclaredNames(stmts) && |reg| == |DeclaredNames(stmts)|
  {
    if stmts != [] {
      var p := stmts[..|stmts| - 1];
      var s := stmts[|stmts| - 1];
      assert stmts == p + [s];
      CollectRegistry(p);
      RegistryStep(p, s);
    }
  }

  lemma RegistryStep(p: seq<Statement>, s: Statement)
    requires var reg := Collect(p).actors;
      Distinct(reg) && Names(reg) == DeclaredNames(p) && |reg| == |DeclaredNames(p)|
    ensures var reg := CollectStatement(Collect(p), s).actors;
      Distinct(reg) && Names(reg) == DeclaredNames(p + [s]) && |reg| == |DeclaredNames(p + [s])|
  {
    DeclaredSnoc(p, s);
    if s.ActorDeclaration? {
      var reg := Collect(p).actors;
      SetNames(reg, s.name, Actor(|reg|, s.value));
      if s.name in DeclaredNames(p) {
        assert DeclaredNames(p) + {s.name} == DeclaredNames(p);
      } else {
        assert |DeclaredNames(p) + {s.name}| == |DeclaredNames(p)| + 1;
      }
    }
  }

  /** The position of the last actor declaration of `name`, if any. */
  function LastDeclaration(stmts: seq<Statement>, name: string): (r: Option<nat>)
    ensures r.Some? ==> r.value < |stmts| && stmts[r.value].ActorDeclaration? && stmts[r.value].name == name
  {
    if stmts == [] then None
    else
      var s := stmts[|stmts| - 1];
      if s.ActorDeclaration? && s.name == name then Some(|stmts| - 1)
      else LastDeclaration(stmts[..|stmts| - 1], name)
  }

  /** What `check` finds for a name after the collection pass: the value of
      its last declaration, with the number of distinct names declared
      before that declaration as its index. */
  lemma {:induction false} CollectActor(stmts: seq<Statement>, name: string)
    ensures Check(Collect(stmts).actors, name)
      == match LastDeclaration(stmts, name)
         case None => None
         case Some(j) => Some(Actor(|DeclaredNames(stmts[..j])|, stmts[j].value))
  {
    if stmts == [] {
      CheckNames([], name);
    } else {
      var p := stmts[..|stmts| - 1];
      var s := stmts[|stmts| - 1];
      assert stmts == p + [s];
      CollectActor(p, name);
      var reg := Collect(p).actors;
      if s.ActorDeclaration? && s.name == name {
        CollectRegistry(p);
        assert stmts[..|p|] == p;
      } else {
        if s.ActorDeclaration? {
          SetOther(reg, s.name, Actor(|reg|, s.value), name);
        }
        match LastDeclaration(p, name)
        case None =>
        case Some(j) => assert stmts[..j] == p[..j];
      }
    }
  }

  /** The position of the first actor declaration of `name`, if any. */
  function FirstDeclaration(stmts: seq<Statement>, name: string): (r: Option<nat>)
    ensures r.Some? ==> r.value < |stmts| && stmts[r.value].ActorDeclaration? && stmts[r.value].name == name
    ensures r.Some? ==> forall i | 0 <= i < r.value :: !(stmts[i].ActorDeclaration? && stmts[i].name == name)
    ensures r.None? ==> forall i | 0 <= i < |stmts| :: !(stmts[i].ActorDeclaration? && stmts[i].name == name)
  {
    if stmts == [] then None
    else if stmts[0].ActorDeclaration? && stmts[0].name == name then Some(0)
    else match FirstDeclaration(stmts[1..], name)
      case None => None
      case Some(j) => Some(j + 1)
  }

  /** `a` is first declared before `b`. */
  ghost predicate Precedes(stmts: seq<Statement>, a: string, b: string)
  {
    var fa := FirstDeclaration(stmts, a);
    var fb := FirstDeclaration(stmts, b);
    fa.Some? && fb.Some? && fa.value < fb.value
  }

  /** The registry lists names in order of their first declaration. */
  ghost predicate FirstOrder(stmts: seq<Statement>, reg: Registry)
  {
    forall i, j | 0 <= i < j < |reg| :: Precedes(stmts, reg[i].name, reg[j].name)
  }

  /** The registry iterates in order of first declaration. */
  lemma {:induction false} CollectOrder(stmts: seq<Statement>)
    ensures FirstOrder(stmts, Collect(stmts).actors)
  {
    if stmts != [] {
      var p := stmts[..|stmts| - 1];
      var s := stmts[|stmts| - 1];
      assert stmts == p + [s];
      CollectOrder(p);
      CollectRegistry(p);
      OrderStep(p, s);
    }
  }

  lemma OrderStep(p: seq<Statement>, s: Statement)
    requires var reg := Collect(p).actors; FirstOrder(p, reg) && Distinct(reg) && Names(reg) == DeclaredNames(p)
    ensures FirstOrder(p + [s], CollectStatement(Collect(p), s).actors)
  {
    KeepFirst(p, s);
    var reg := Collect(p).actors;
    if s.ActorDeclaration? {
      assert CollectStatement(Collect(p), s).actors == Set(reg, s.name, Actor(|reg|, s.value));
      OrderStepActor(p, s, reg);
    } else {
      assert CollectStatement(Collect(p), s).actors == Collect(p).actors;
    }
  }

  /** Appending a statement moves no registered name's first declaration. */
  lemma KeepFirst(p: seq<Statement>, s: Statement)
    requires Names(Collect(p).actors) == DeclaredNames(p)
    ensures var reg := Collect(p).actors;
      forall i | 0 <= i < |reg| ::
        FirstDeclaration(p, reg[i].name).Some? && FirstDeclaration(p + [s], reg[i].name) == FirstDeclaration(p, reg[i].name)
  {
    var reg := Collect(p).actors;
    forall i | 0 <= i < |reg|
      ensures FirstDeclaration(p, reg[i].name).Some?
      ensures FirstDeclaration(p + [s], reg[i].name) == FirstDeclaration(p, reg[i].name)
    {
      assert reg[i].name in Names(reg);
      DeclaredFound(p, reg[i].name);
      FirstDeclarationSnoc(p, s, reg[i].name);
    }
  }

  lemma OrderStepActor(p: seq<Statement>, s: Statement, reg: Registry)
    requires s.ActorDeclaration?
    requires FirstOrder(p, reg) && Distinct(reg) && Names(reg) == DeclaredNames(p)
    requires forall i | 0 <= i < |reg| ::
      FirstDeclaration(p, reg[i].name).Some? && FirstDeclaration(p + [s], reg[i].name) == FirstDeclaration(p, reg[i].name)
    ensures FirstOrder(p + [s], Set(reg, s.name, Actor(|reg|, s.value)))
  {
    var r := Set(reg, s.name, Actor(|reg|, s.value));
    SetNames(reg, s.name, Actor(|reg|, s.value));
    FirstDeclarationSnoc(p, s, s.name);
    assert forall i | 0 <= i < |reg| :: r[i].name == reg[i].name;
    forall i, j | 0 <= i < j < |r|
      ensures Precedes(p + [s], r[i].name, r[j].name)
    {
      if j < |reg| {
        assert Precedes(p, reg[i].name, reg[j].name);
      } else {
        CheckNames(reg, s.name);
        FindFirst(reg, s.name);
        assert r[j].name == s.name;
      }
    }
  }

  /** A declared name has a first declaration. */
  lemma DeclaredFound(stmts: seq<Statement>, name: string)
    requires name in DeclaredNames(stmts)
    ensures FirstDeclaration(stmts, name).Some?
  {
    var i :| 0 <= i < |stmts| && stmts[i].ActorDeclaration? && stmts[i].name == name;
  }

  /** Appending a statement leaves earlier first declarations in place and
      makes a new actor name's first declaration the last position. */
  lemma FirstDeclarationSnoc(p: seq<Statement>, s: Statement, name: string)
    ensures FirstDeclaration(p + [s], name)
      == if FirstDeclaration(p, name).Some? then FirstDeclaration(p, name)
         else if s.ActorDeclaration? && s.name == name then Some(|p|)
         else None
  {
    var q := p + [s];
    var r := FirstDeclaration(q, name);
    var f := FirstDeclaration(p, name);
    assert forall i | 0 <= i < |p| :: q[i] == p[i];
    if f.Some? {
      assert q[f.value] == p[f.value];
    } else {
      assert q[|p|] == s;
    }
  }

  /** When no name is declared twice, every actor's index is its position
      in the registry, and so its box. */
  lemma {:induction false} FreshIndices(stmts: seq<Statement>)
    requires forall i, j | 0 <= i < j < |stmts| && stmts[i].ActorDeclaration? && stmts[j].ActorDeclaration? :: stmts[i].name != stmts[j].name
    ensures var reg := Collect(stmts).actors;
      forall i | 0 <= i < |reg| :: reg[i].actor.index == i
  {
    if stmts != [] {
      var p := stmts[..|stmts| - 1];
      var s := stmts[|stmts| - 1];
      assert stmts == p + [s];
      FreshIndices(p);
      if s.ActorDeclaration? {
        var reg := Collect(p).actors;
        CollectRegistry(p);
        assert s.name !in DeclaredNames(p);
        CheckNames(reg, s.name);
        FindFirst(reg, s.name);
      }
    }
  }

  // ---------------------------------------------------------------------
  // Geometry

  /** `boxBottomMid`: the first and the last lifeline sit half a box in from
      the two canvas edges, and neighbouring ones are a box and a gap apart,
      all at the bottom edge of the boxes. */
  lemma BoxMidSpacing(width: real, n: nat, i: nat)
    requires n >= 1
    ensures BoxBottomMid(width, n, 0).0 == X + BoxWidth(width, n) / 2.0
    ensures BoxBottomMid(width, n, n - 1).0 == X + width - BoxWidth(width, n) / 2.0
    ensures BoxBottomMid(width, n, i + 1).0 - BoxBottomMid(width, n, i).0 == BoxWidth(width, n) + SPACING
    ensures BoxBottomMid(width, n, i).1 == Y + HEIGHT
  {
    var bw := BoxWidth(width, n);
    var m := (n - 1) as real;
    assert (bw + SPACING) * m == m * bw + m * SPACING;
    assert (n as real) * bw == m * bw + bw;
    assert (bw + SPACING) * ((i + 1) as real) == (bw + SPACING) * (i as real) + (bw + SPACING);
  }

  /** The boxes span the canvas: the right edge of the last box is at
      `X + width`, and each box starts SPACING after the previous one ends. */
  lemma BoxesSpan(reg: Registry, width: real, measure: string -> real, i: nat)
    requires i + 1 < |reg|
    ensures var bw := BoxWidth(width, |reg|);
      BoxOps(reg, width, measure, i + 1)[0].x == BoxOps(reg, width, measure, i)[0].x + bw + SPACING
      && BoxOps(reg, width, measure, |reg| - 1)[0].x + bw == X + width
  {
    var n := |reg|;
    var bw := BoxWidth(width, n);
    assert ((i + 1) as real) * (bw + SPACING) == (i as real) * (bw + SPACING) + bw + SPACING;
    assert ((n - 1) as real) * (bw + SPACING) + bw == (n as real) * bw + ((n - 1) as real) * SPACING;
  }

  /** An actor whose index is its position hangs its lifeline from the
      middle of its own box's bottom edge. */
  lemma LifelineUnderBox(reg: Registry, width: real, measure: string -> real, length: real, i: nat)
    requires i < |reg| && reg[i].actor.index == i
    ensures var box := BoxOps(reg, width, measure, i)[0];
      LifelineOp(reg, width, length, i)
      == Line(box.x + box.w / 2.0, box.y + box.h, box.x + box.w / 2.0, box.y + box.h + length)
  {
  }

  /** Redeclaring the only actor moves its index to 1 while its box stays
      at position 0, so its lifeline falls to the right of the canvas. */
  lemma RedeclaredLifeline(width: real, length: real)
    requires width > 0.0
    ensures var reg := Collect([ActorDeclaration("A", "a"), ActorDeclaration("A", "b")]).actors;
      reg == [Entry("A", Actor(1, "b"))]
      && LifelineOp(reg, width, length, 0).x1 > X + width
  {
    var first := Collect([ActorDeclaration("A", "a")]);
    assert [ActorDeclaration("A", "a"), ActorDeclaration("A", "b")][..1] == [ActorDeclaration("A", "a")];
    assert [ActorDeclaration("A", "a")][..0] == [];
    assert first.actors == [Entry("A", Actor(0, "a"))];
    assert Find(first.actors, "A") == Some(0);
  }

  /** The arrow of action `k` is level, `ACTION_SPACING_VERTICAL * (k + 1)`
      below the boxes, and runs between the two lifelines in the declared
      direction; the label sits 3 units above it, centred between the
      lifelines and no wider than the gap. */
  lemma ActionLevel(reg: Registry, width: real, measure: string -> real, a: Statement, k: nat)
    requires a.ActionDeclaration? && Defined(reg, a)
    ensures var ops := ActionOps(reg, width, measure, a, k);
      var y := Y + HEIGHT + ACTION_SPACING_VERTICAL * ((k + 1) as real);
      var left := BoxBottomMid(width, |reg|, Check(reg, a.leftActor).value.index).0;
      var right := BoxBottomMid(width, |reg|, Check(reg, a.rightActor).value.index).0;
      |ops| == 2
      && ops[0] == StrokeText(a.value, Min(left, right) + (Abs(right - left) - measure(a.value)) / 2.0, y - 3.0, Abs(right - left))
      && ops[1] == (if a.direction == RIGHT then Arrow(left, y, right, y) else Arrow(right, y, left, y))
  {
    CheckNames(reg, a.leftActor);
    CheckNames(reg, a.rightActor);
  }

  // ---------------------------------------------------------------------
  // The layout pass

  lemma {:induction false} LifelinesLength(reg: Registry, width: real, length: real, n: nat)
    requires n <= |reg|
    ensures |Lifelines(reg, width, length, n)| == n
  {
    if n > 0 {
      LifelinesLength(reg, width, length, n - 1);
    }
  }

  lemma MulStep(n: nat, per: nat)
    requires n > 0
    ensures (n - 1) * per + per == n * per
  {
  }

  lemma {:induction false} BlocksLength(reg: Registry, actions: seq<Statement>, width: real, measure: string -> real, n: nat)
    requires n <= |actions|
    requires forall k | 0 <= k < n :: actions[k].ActionDeclaration? && Defined(reg, actions[k])
    ensures |Blocks(reg, actions, width, measure, n)| == n * (|reg| + 2)
  {
    if n > 0 {
      var lines := Lifelines(reg, width, TIMELINE_LENGTH * (n as real), |reg|);
      var ops := ActionOps(reg, width, measure, actions[n - 1], n - 1);
      var prev := |Blocks(reg, actions, width, measure, n - 1)|;
      assert |Blocks(reg, actions, width, measure, n)| == prev + |lines| + |ops|;
      BlocksLength(reg, actions, width, measure, n - 1);
      LifelinesLength(reg, width, TIMELINE_LENGTH * (n as real), |reg|);
      MulStep(n, |reg| + 2);
      assert |Blocks(reg, actions, width, measure, n)| == (n - 1) * (|reg| + 2) + (|reg| + 2);
    }
  }

  /** The layout succeeds exactly when every action's actors are
      registered; otherwise it names an actor that is not, taken from the
      first action that has one, and its trace ends with the lifelines of
      that action's timeline step. The trace has `|reg| + 2` calls per
      completed action. */
  lemma LayoutOutcome(reg: Registry, actions: seq<Statement>, width: real, measure: string -> real)
    requires forall k | 0 <= k < |actions| :: actions[k].ActionDeclaration?
    ensures var r := Layout(reg, actions, width, measure);
      (r.Success? <==> forall k | 0 <= k < |actions| :: Defined(reg, actions[k]))
      && (r.Success? ==> |r.trace| == |actions| * (|reg| + 2))
      && (r.Failure? ==> exists k | 0 <= k < |actions| ::
            && (forall i | 0 <= i < k :: Defined(reg, actions[i]))
            && !Defined(reg, actions[k])
            && r.name == (if Check(reg, actions[k].leftActor).None? then actions[k].leftActor else actions[k].rightActor)
            && |r.trace| == k * (|reg| + 2) + |reg|)
      && (r.Failure? ==> Check(reg, r.name).None?)
  {
    var j := FirstBroken(reg, actions, 0);
    BlocksLength(reg, actions, width, measure, j);
    if j < |actions| {
      LifelinesLength(reg, width, TIMELINE_LENGTH * ((j + 1) as real), |reg|);
      var r := Layout(reg, actions, width, measure);
      assert r.name == Culprit(reg, actions[j]);
    }
  }

  /** `render` completes exactly when every action of the program names
      two declared actors. */
  lemma RenderCompletes(stmts: seq<Statement>, width: real, measure: string -> real)
    ensures var c := Collect(stmts);
      Layout(c.actors, c.actions, width, measure).Success?
      <==> forall k | 0 <= k < |stmts| && stmts[k].ActionDeclaration? ::
             stmts[k].leftActor in DeclaredNames(stmts) && stmts[k].rightActor in DeclaredNames(stmts)
  {
    var c := Collect(stmts);
    CollectActions(stmts);
    CollectRegistry(stmts);
    ActionsMembers(stmts);
    LayoutOutcome(c.actors, c.actions, width, measure);
    forall a | a in c.actions
      ensures Defined(c.actors, a) <==> a.leftActor in DeclaredNames(stmts) && a.rightActor in DeclaredNames(stmts)
    {
      CheckNames(c.actors, a.leftActor);
      CheckNames(c.actors, a.rightActor);
    }
  }

  /** The actions of a program are its action declarations. */
  lemma {:induction false} ActionsMembers(stmts: seq<Statement>)
    ensures forall a :: a in Actions(stmts) <==> a in stmts && a.ActionDeclaration?
  {
    if stmts != [] {
      ActionsMembers(stmts[1..]);
      assert stmts == [stmts[0]] + stmts[1..];
    }
  }
}

=== FILE: scanner.dfy ===
/** The lexical scanner of the diagram language (src/language/scanner.ts).

    The scanner walks a buffer made of the source text followed by one NUL
    sentinel, keeping the offsets `start` (beginning of the current lexeme)
    and `current` (next character to read) and a 1-based `line`. Tokens carry
    half-open offsets into the source and never the text itself. */
module Scanner {
  import opened Base

  datatype TokenType =
    | EQUAL | STRING | LEFT_ARROW | RIGHT_ARROW | ACTOR | ACTION
    | IDENTIFIER | SEMICOLON | LEFT_PAREN | RIGHT_PAREN | ERROR | EOF

  datatype Token = Token(kind: TokenType, line: nat, start: nat, end: nat)

  datatype ErrorKind = UnterminatedString | UnexpectedCharacter

  /** A lexical error: its kind, the line it was reported on and the text
      between `start` and `current` when it was reported. */
  datatype ScanError = ScanError(kind: ErrorKind, line: nat, lexeme: string)

  /** The scanner's cursor state together with its two output lists. */
  datatype State = State(start: nat, current: nat, line: nat, tokens: seq<Token>, errors: seq<ScanError>)

  datatype ScanResult = ScanResult(tokens: seq<Token>, errors: seq<ScanError>)

  const NUL: char := '\0'

  /** The character at offset `i` of the buffer `src + NUL`; offsets past the
      sentinel read as NUL as well. */
  function CharAt(src: string, i: nat): (r: char)
  {
    if i < |src| then src[i] else NUL
  }

  predicate IsAlpha(c: char)
  {
    ('a' <= c <= 'z') || ('A' <= c <= 'Z') || c == '_'
  }

  predicate IsAlphaNumeric(c: char)
  {
    IsAlpha(c) || ('0' <= c <= '9')
  }

  /** The keyword table. */
  function Keyword(lexeme: string): (r: Option<TokenType>)
    ensures r.Some? <==> lexeme == "actor" || lexeme == "action"
    ensures r == Some(ACTOR) <==> lexeme == "actor"
    ensures r == Some(ACTION) <==> lexeme == "action"
  {
    if lexeme == "actor" then Some(ACTOR)
    else if lexeme == "action" then Some(ACTION)
    else None
  }

  /** Scanning ends at the first NUL, which is at the latest the sentinel. */
  predicate IsAtEnd(src: string, current: nat)
  {
    CharAt(src, current) == NUL
  }

  /** The character under the cursor, or nothing at the end. */
  function Peek(src: string, current: nat): (r: Option<char>)
    ensures r == None <==> IsAtEnd(src, current)
    ensures r.Some? ==> current < |src| && r.value == src[current]
  {
    if IsAtEnd(src, current) then None else Some(CharAt(src, current))
  }

  /** Reads one character and moves past it; at the end nothing is read and
      the cursor stays put. */
  function Advance(src: string, current: nat): (r: (Option<char>, nat))
    ensures r.0 == Peek(src, current)
    ensures r.1 == if IsAtEnd(src, current) then current else current + 1
  {
    if IsAtEnd(src, current) then (None, current) else (Some(CharAt(src, current)), current + 1)
  }

  /** One character of lookahead: true iff the next character is `c`. */
  function Match(src: string, current: nat, c: char): (b: bool)
    ensures b <==> current < |src| && src[current] == c && c != NUL
  {
    if IsAtEnd(src, current) then false else Peek(src, current) == Some(c)
  }

  /** Emits a token spanning `start..current` and starts the next lexeme at `current`. */
  function AddToken(s: State, kind: TokenType): (r: State)
    ensures r.tokens == s.tokens + [Token(kind, s.line, s.start, s.current)]
    ensures r.start == r.current == s.current
    ensures r.line == s.line && r.errors == s.errors
  {
    s.(tokens := s.tokens + [Token(kind, s.line, s.start, s.current)], start := s.current)
  }

  /** Records an error about the text `start..current` and moves `start` one
      character on (it is not reset to `current`). */
  function ScannerError(src: string, s: State, kind: ErrorKind): (r: State)
    ensures r.errors == s.errors + [ScanError(kind, s.line, Slice(src, s.start, s.current))]
    ensures r.start == s.start + 1
    ensures r.current == s.current && r.line == s.line && r.tokens == s.tokens
  {
    s.(errors := s.errors + [ScanError(kind, s.line, Slice(src, s.start, s.current))], start := s.start + 1)
  }

  /** The source text a token's offsets delimit (`source.slice(start, end)`). */
  function Text(src: string, t: Token): (r: string)
    ensures t.start <= t.end <= |src| ==> r == src[t.start..t.end]
  {
    Slice(src, t.start, t.end)
  }

  /** Offsets `from..to` hold string-literal content: no quote, newline or NUL. */
  ghost predicate Plain(src: string, from: nat, to: nat)
    requires to <= |src|
  {
    forall i | from <= i < to :: src[i] != '"' && src[i] != '\n' && src[i] != NUL
  }

  /** The literal whose content begins at `from` is closed by the quote at `q`. */
  ghost predicate Closes(src: string, from: nat, q: nat)
  {
    from <= q < |src| && src[q] == '"' && Plain(src, from, q)
  }

  /** No quote closes the literal whose content begins at `from`. */
  ghost predicate Unclosed(src: string, from: nat)
  {
    forall q: nat :: !Closes(src, from, q)
  }

  /** `longer` begins with `shorter`. */
  ghost predicate Extends<T>(longer: seq<T>, shorter: seq<T>)
  {
    |shorter| <= |longer| && longer[..|shorter|] == shorter
  }

  /** Body of a string literal: `s.current` is the offset just after the
      opening quote. It reads up to the closing quote, a newline or the end
      of input; StringBodyEnds says what each case leaves behind. */
  function StringBody(src: string, s: State): (r: State)
    requires s.current <= |src|
    decreases |src| - s.current
    ensures r.line == s.line
    ensures s.current <= r.current <= |src|
    ensures Extends(r.tokens, s.tokens) && |r.tokens| <= |s.tokens| + 1
    ensures Extends(r.errors, s.errors) && |r.errors| <= |s.errors| + 1
  {
    if Peek(src, s.current) == Some('"') then
      var t := AddToken(s, STRING);
      t.(start := t.start + 1, current := Advance(src, t.current).1)
    else
      var (c, current) := Advance(src, s.current);
      if IsAtEnd(src, current) || c == Some('\n') then
        ScannerError(src, s.(current := current), UnterminatedString)
      else
        StringBody(src, s.(current := current))
  }

  /** A closing quote yields a STRING token from `s.start` to the quote and
      scanning resumes after it; a newline or the end of input before any
      closing quote yields one "Unterminated string" error and no token, and
      moves `start` one character on. */
  lemma {:induction false} StringBodyEnds(src: string, s: State)
    requires s.current <= |src|
    decreases |src| - s.current
    ensures var r := StringBody(src, s);
      forall q: nat | Closes(src, s.current, q) ::
        r == s.(tokens := s.tokens + [Token(STRING, s.line, s.start, q)], start := q + 1, current := q + 1)
    ensures var r := StringBody(src, s);
      Unclosed(src, s.current) ==>
        && r.tokens == s.tokens
        && r.errors == s.errors + [ScanError(UnterminatedString, s.line, Slice(src, s.start, r.current))]
        && r.start == s.start + 1
        && if s.current < r.current && src[r.current - 1] == '\n' then Plain(src, s.current, r.current - 1)
           else Plain(src, s.current, r.current) && IsAtEnd(src, r.current)
  {
    if Peek(src, s.current) == Some('"') {
      assert Closes(src, s.current, s.current);
    } else {
      var (c, current) := Advance(src, s.current);
      if !(IsAtEnd(src, current) || c == Some('\n')) {
        assert forall q: nat :: Closes(src, s.current, q) <==> Closes(src, current, q);
        StringBodyEnds(src, s.(current := current));
      }
    }
  }

  /** A string literal whose opening quote has just been read. */
  function StringLiteral(src: string, s: State): (r: State)
    requires s.current <= |src|
  {
    StringBody(src, s.(start := s.start + 1))
  }

  /** The end of the maximal run of letters, digits and underscores from `current`. */
  function IdentifierEnd(src: string, current: nat): (e: nat)
    requires current <= |src|
    decreases |src| - current
    ensures current <= e <= |src|
    ensures forall i | current <= i < e :: IsAlphaNumeric(src[i])
    ensures e == |src| || !IsAlphaNumeric(src[e])
  {
    match Peek(src, current)
    case Some(c) => if IsAlphaNumeric(c) then IdentifierEnd(src, current + 1) else current
    case None => current
  }

  /** An identifier or keyword whose first character has just been read. */
  function Identifier(src: string, s: State): (r: State)
    requires s.current <= |src|
  {
    var e := IdentifierEnd(src, s.current);
    var lexeme := Slice(src, s.start, e);
    match Keyword(lexeme)
    case Some(kind) => AddToken(s.(current := e), kind)
    case None => AddToken(s.(current := e), IDENTIFIER)
  }

  /** Tokens come in offset order and never overlap. */
  ghost predicate Ordered(tokens: seq<Token>)
  {
    && (forall i | 0 <= i < |tokens| :: tokens[i].start <= tokens[i].end)
    && (forall i, j | 0 <= i < j < |tokens| :: tokens[i].end <= tokens[j].start)
  }

  /** Token line numbers never decrease. */
  ghost predicate LinesAscend(tokens: seq<Token>)
  {
    forall i, j | 0 <= i < j < |tokens| :: tokens[i].line <= tokens[j].line
  }

  /** A well-kept token list: ordered, with ascending lines, all ending at or
      before `bound`, none on a line after `line`, and free of EOF and ERROR. */
  ghost predicate TokensOk(tokens: seq<Token>, bound: nat, line: nat)
  {
    && Ordered(tokens)
    && LinesAscend(tokens)
    && (forall i | 0 <= i < |tokens| ::
          && tokens[i].end <= bound
          && tokens[i].line <= line
          && tokens[i].kind != EOF
          && tokens[i].kind != ERROR)
  }

  lemma TokensOkWeaken(tokens: seq<Token>, bound: nat, line: nat, bound': nat, line': nat)
    requires TokensOk(tokens, bound, line) && bound <= bound' && line <= line'
    ensures TokensOk(tokens, bound', line')
  {
  }

  lemma TokensOkAppend(tokens: seq<Token>, bound: nat, line: nat, t: Token, bound': nat)
    requires TokensOk(tokens, bound, line)
    requires bound <= t.start <= t.end <= bound' && t.line == line
    requires t.kind != EOF && t.kind != ERROR
    ensures TokensOk(tokens + [t], bound', line)
  {
  }

  /** No NUL before `current`: the cursor never moves past the first NUL. */
  ghost predicate NulFree(src: string, current: nat)
    requires current <= |src|
  {
    forall k | 0 <= k < current :: src[k] != NUL
  }

  /** What holds at the top of the main scanning loop. */
  ghost predicate Inv(src: string, s: State)
  {
    && s.current <= |src|
    && NulFree(src, s.current)
    && (!IsAtEnd(src, s.current) ==> s.start <= s.current)
    && TokensOk(s.tokens, if s.start <= s.current then s.start else s.current, s.line)
  }

  /** One iteration of the main scanning loop. */
  function ScanStep(src: string, s: State): (r: State)
    requires s.current <= |src| && !IsAtEnd(src, s.current)
    ensures s.current < r.current <= |src|
    ensures s.line <= r.line
    ensures Extends(r.tokens, s.tokens) && |r.tokens| <= |s.tokens| + 1
    ensures Extends(r.errors, s.errors) && |r.errors| <= |s.errors| + 1
  {
    var c := CharAt(src, s.current);
    var t := s.(current := Advance(src, s.current).1);
    match c
    case ' ' => t.(start := t.start + 1)
    case '\t' => t.(start := t.start + 1)
    case '\r' => t.(start := t.start + 1)
    case '\n' => t.(start := t.start + 1, line := t.line + 1)
    case ';' => AddToken(t, SEMICOLON)
    case '(' => AddToken(t, LEFT_PAREN)
    case ')' => AddToken(t, RIGHT_PAREN)
    case '=' => AddToken(t, EQUAL)
    case '-' =>
      if Match(src, t.current, '>') then AddToken(t.(current := Advance(src, t.current).1), RIGHT_ARROW)
      else ScannerError(src, t, UnexpectedCharacter)
    case '<' =>
      if Match(src, t.current, '-') then AddToken(t.(current := Advance(src, t.current).1), LEFT_ARROW)
      else ScannerError(src, t, UnexpectedCharacter)
    case '"' => StringLiteral(src, t)
    case _ =>
      if IsAlpha(c) then Identifier(src, t)
      else ScannerError(src, t, UnexpectedCharacter)
  }

  lemma StepKeepsInv(src: string, s: State)
    requires Inv(src, s) && !IsAtEnd(src, s.current)
    ensures Inv(src, ScanStep(src, s))
  {
    var c := CharAt(src, s.current);
    if c == '"' {
      StringStepKeepsInv(src, s);
    } else if IsAlpha(c) {
      IdentifierStepKeepsInv(src, s);
    } else {
      OtherStepKeepsInv(src, s);
    }
  }

  lemma OtherStepKeepsInv(src: string, s: State)
    requires Inv(src, s) && !IsAtEnd(src, s.current)
    requires CharAt(src, s.current) != '"' && !IsAlpha(CharAt(src, s.current))
    ensures Inv(src, ScanStep(src, s))
  {
    var r := ScanStep(src, s);
    assert NulFree(src, r.current);
    if |r.tokens| == |s.tokens| {
      TokensOkWeaken(s.tokens, s.start, s.line, r.start, r.line);
    } else {
      TokensOkAppend(s.tokens, s.start, s.line, r.tokens[|r.tokens| - 1], r.current);
    }
  }

  lemma StringStepKeepsInv(src: string, s: State)
    requires Inv(src, s) && !IsAtEnd(src, s.current)
    requires CharAt(src, s.current) == '"'
    ensures Inv(src, ScanStep(src, s))
  {
    var r := ScanStep(src, s);
    var u := s.(current := s.current + 1, start := s.start + 1);
    assert r == StringBody(src, u);
    StringBodyEnds(src, u);
    if q: nat :| Closes(src, u.current, q) {
      assert NulFree(src, r.current);
      TokensOkAppend(s.tokens, s.start, s.line, Token(STRING, s.line, s.start + 1, q), r.current);
    } else {
      assert NulFree(src, r.current);
      TokensOkWeaken(s.tokens, s.start, s.line, if r.start <= r.current then r.start else r.current, r.line);
    }
  }

  lemma IdentifierStepKeepsInv(src: string, s: State)
    requires Inv(src, s) && !IsAtEnd(src, s.current)
    requires IsAlpha(CharAt(src, s.current))
    ensures Inv(src, ScanStep(src, s))
  {
    var r := ScanStep(src, s);
    var e := IdentifierEnd(src, s.current + 1);
    assert r.current == e;
    assert NulFree(src, e);
    TokensOkAppend(s.tokens, s.start, s.line, r.tokens[|r.tokens| - 1], r.current);
  }

  /** The main loop: steps until the cursor reaches the first NUL. */
  function ScanLoop(src: string, s: State): (r: State)
    requires s.current <= |src|
    decreases |src| - s.current
    ensures s.current <= r.current <= |src| && IsAtEnd(src, r.current)
  {
    if IsAtEnd(src, s.current) then s else ScanLoop(src, ScanStep(src, s))
  }

  /** The loop invariant holds when the loop stops. */
  lemma {:induction false} LoopKeepsInv(src: string, s: State)
    requires Inv(src, s)
    decreases |src| - s.current
    ensures Inv(src, ScanLoop(src, s))
  {
    if !IsAtEnd(src, s.current) {
      StepKeepsInv(src, s);
      LoopKeepsInv(src, ScanStep(src, s));
    }
  }

  const Initial: State := State(0, 0, 1, [], [])

  /** Scans the whole source and appends the single EOF token, which spans
      the sentinel position just after the source. */
  function Scan(src: string): (r: ScanResult)
    ensures |r.tokens| > 0
    ensures var eof := r.tokens[|r.tokens| - 1];
      eof.kind == EOF && eof.start == |src| && eof.end == |src| + 1
    ensures forall i | 0 <= i < |r.tokens| - 1 :: r.tokens[i].kind != EOF && r.tokens[i].kind != ERROR
    ensures forall i | 0 <= i < |r.tokens| - 1 :: r.tokens[i].end <= |src|
    ensures forall i, k | 0 <= i < |r.tokens| - 1 && 0 <= k < |src| && src[k] == NUL :: r.tokens[i].end <= k
    ensures Ordered(r.tokens) && LinesAscend(r.tokens)
  {
    var s := ScanLoop(src, Initial);
    LoopKeepsInv(src, Initial);
    ScanResult(s.tokens + [Token(EOF, s.line, |src|, |src| + 1)], s.errors)
  }
}

=== FILE: scanner_examples.dfy ===
/** The scanner's own example inputs (tests/parser.test.ts), worked through
    step by step, and one input showing how a cut-short string literal shifts
    the span of the token after it. */
module ScannerExamples {
  import opened Base
  import opened Scanner
  import opened ScannerLemmas

  lemma StringExample()
    ensures Scan("\"12345\"") == ScanResult([Token(STRING, 1, 1, 6), Token(EOF, 1, 7, 8)], [])
  {
    var src := "\"12345\"";
    assert Closes(src, 1, 6);
    StepClosedString(src, Initial, 6);
    var s1 := State(7, 7, 1, [Token(STRING, 1, 1, 6)], []);
    Through(src, Initial, s1);
    Finished(src, s1);
  }

  lemma IdentifierExample()
    ensures Scan("a123") == ScanResult([Token(IDENTIFIER, 1, 0, 4), Token(EOF, 1, 4, 5)], [])
  {
    var src := "a123";
    var e := StepWord(src, Initial);
    assert e == 4;
    assert Slice(src, 0, 4) == "a123";
    var s1 := State(4, 4, 1, [Token(IDENTIFIER, 1, 0, 4)], []);
    Through(src, Initial, s1);
    Finished(src, s1);
  }

  lemma KeywordExample()
    ensures Scan("actor") == ScanResult([Token(ACTOR, 1, 0, 5), Token(EOF, 1, 5, 6)], [])
  {
    var src := "actor";
    var e := StepWord(src, Initial);
    assert e == 5;
    assert Slice(src, 0, 5) == "actor";
    var s1 := State(5, 5, 1, [Token(ACTOR, 1, 0, 5)], []);
    Through(src, Initial, s1);
    Finished(src, s1);
  }

  /** One loop iteration taken by hand. */
  lemma Through(src: string, s: State, t: State)
    requires s.current <= |src| && !IsAtEnd(src, s.current) && ScanStep(src, s) == t
    ensures ScanLoop(src, s) == ScanLoop(src, t)
  {
  }

  /** The loop stops once the cursor is at the end. */
  lemma Finished(src: string, s: State)
    requires s.current <= |src| && IsAtEnd(src, s.current)
    ensures ScanLoop(src, s) == s
  {
  }

  /** A one-character token followed by a space. */
  lemma TokenThenSpace(src: string, s: State, kind: TokenType, t: State)
    requires s.start == s.current && s.current + 1 < |src|
    requires FixedKind(src[s.current]) == Some(kind) && src[s.current + 1] == ' '
    requires t == s.(tokens := s.tokens + [Token(kind, s.line, s.current, s.current + 1)],
                     start := s.current + 2, current := s.current + 2)
    ensures ScanLoop(src, s) == ScanLoop(src, t)
  {
    var s1 := t.(start := s.current + 1, current := s.current + 1);
    StepFixedToken(src, s); Through(src, s, s1);
    StepWhitespace(src, s1); Through(src, s1, t);
  }

  /** An arrow followed by a space. */
  lemma ArrowThenSpace(src: string, s: State, kind: TokenType, t: State)
    requires s.start == s.current && s.current + 2 < |src|
    requires || (src[s.current] == '-' && src[s.current + 1] == '>' && kind == RIGHT_ARROW)
             || (src[s.current] == '<' && src[s.current + 1] == '-' && kind == LEFT_ARROW)
    requires src[s.current + 2] == ' '
    requires t == s.(tokens := s.tokens + [Token(kind, s.line, s.current, s.current + 2)],
                     start := s.current + 3, current := s.current + 3)
    ensures ScanLoop(src, s) == ScanLoop(src, t)
  {
    var s1 := t.(start := s.current + 2, current := s.current + 2);
    StepArrow(src, s); Through(src, s, s1);
    StepWhitespace(src, s1); Through(src, s1, t);
  }

  /** The fixed-size tokens are one or two characters long, and `->` and
      `<-` are recognised as two-character tokens. */
  lemma FixedTokensExample(src: string)
    requires src == "( ) ; -> <- "
    ensures Scan(src).tokens ==
      [ Token(LEFT_PAREN, 1, 0, 1), Token(RIGHT_PAREN, 1, 2, 3), Token(SEMICOLON, 1, 4, 5)
      , Token(RIGHT_ARROW, 1, 6, 8), Token(LEFT_ARROW, 1, 9, 11), Token(EOF, 1, 12, 13) ]
  {
    TokenThenSpace(src, Initial, LEFT_PAREN, State(2, 2, 1, [Paren], []));
    FixedTokensFrom2(src);
  }

  const Paren := Token(LEFT_PAREN, 1, 0, 1)
  const Close := Token(RIGHT_PAREN, 1, 2, 3)
  const Semi := Token(SEMICOLON, 1, 4, 5)
  const Right := Token(RIGHT_ARROW, 1, 6, 8)
  const Left := Token(LEFT_ARROW, 1, 9, 11)

  lemma FixedTokensFrom2(src: string)
    requires src == "( ) ; -> <- "
    ensures ScanLoop(src, State(2, 2, 1, [Paren], [])) == State(12, 12, 1, [Paren, Close, Semi, Right, Left], [])
  {
    TokenThenSpace(src, State(2, 2, 1, [Paren], []), RIGHT_PAREN, State(4, 4, 1, [Paren, Close], []));
    FixedTokensFrom4(src);
  }

  lemma FixedTokensFrom4(src: string)
    requires src == "( ) ; -> <- "
    ensures ScanLoop(src, State(4, 4, 1, [Paren, Close], [])) == State(12, 12, 1, [Paren, Close, Semi, Right, Left], [])
  {
    TokenThenSpace(src, State(4, 4, 1, [Paren, Close], []), SEMICOLON, State(6, 6, 1, [Paren, Close, Semi], []));
    FixedTokensFrom6(src);
  }

  lemma FixedTokensFrom6(src: string)
    requires src == "( ) ; -> <- "
    ensures ScanLoop(src, State(6, 6, 1, [Paren, Close, Semi], [])) == State(12, 12, 1, [Paren, Close, Semi, Right, Left], [])
  {
    ArrowThenSpace(src, State(6, 6, 1, [Paren, Close, Semi], []), RIGHT_ARROW, State(9, 9, 1, [Paren, Close, Semi, Right], []));
    FixedTokensFrom9(src);
  }

  lemma FixedTokensFrom9(src: string)
    requires src == "( ) ; -> <- "
    ensures ScanLoop(src, State(9, 9, 1, [Paren, Close, Semi, Right], [])) == State(12, 12, 1, [Paren, Close, Semi, Right, Left], [])
  {
    ArrowThenSpace(src, State(9, 9, 1, [Paren, Close, Semi, Right], []), LEFT_ARROW, State(12, 12, 1, [Paren, Close, Semi, Right, Left], []));
    Finished(src, State(12, 12, 1, [Paren, Close, Semi, Right, Left], []));
  }

  /** After the literal `"ab` is cut short by a newline, `start` is left
      inside the literal, so the identifier `x` on the next line gets the
      span 2..5, whose text is "b\nx"; the newline inside the broken literal
      did not advance the line either. */
  lemma BrokenStringExample(src: string)
    requires src == "\"ab\nx"
    ensures Scan(src) ==
      ScanResult([Token(IDENTIFIER, 1, 2, 5), Token(EOF, 1, 5, 6)],
                 [ScanError(UnterminatedString, 1, "ab\n")])
    ensures Text(src, Token(IDENTIFIER, 1, 2, 5)) == "b\nx"
  {
    assert src[3] == '\n';
    assert Unclosed(src, 1) by {
      forall q: nat ensures !Closes(src, 1, q) {
      }
    }
    StepUnterminatedString(src, Initial);
    StringBodyEnds(src, State(1, 1, 1, [], []));
    var r := ScanStep(src, Initial);
    assert r.current == 4;
    assert Slice(src, 1, 4) == "ab\n";
    var s1 := State(2, 4, 1, [], [ScanError(UnterminatedString, 1, "ab\n")]);
    assert r == s1;
    var e := StepWord(src, s1);
    assert e == 5;
    assert Slice(src, 2, 5) == "b\nx";
    var s2 := State(5, 5, 1, [Token(IDENTIFIER, 1, 2, 5)], [ScanError(UnterminatedString, 1, "ab\n")]);
    Through(src, Initial, s1);
    Through(src, s1, s2);
    Finished(src, s2);
  }
}

=== FILE: scanner_lemmas.dfy ===
/** What one iteration of the scanner's main loop does with each kind of
    character, what the finished token list looks like, and the scanner's
    own example inputs worked through. */
module ScannerLemmas {
  import opened Base
  import opened Scanner

  /** The main loop stops at the NUL the constructor appends, or earlier at
      a NUL of the input. */
  lemma AtEnd(src: string, current: nat)
    requires current <= |src|
    ensures IsAtEnd(src, current) <==> current == |src| || src[current] == NUL
  {
  }

  /** A letter or underscore that starts a word also continues one; a digit
      continues a word but never starts one; and neither NUL nor any
      character that starts another lexeme continues a word, so a word ends
      where the next lexeme begins. */
  lemma WordChars(c: char)
    ensures IsAlpha(c) ==> IsAlphaNumeric(c)
    ensures '0' <= c <= '9' ==> IsAlphaNumeric(c) && !IsAlpha(c)
    ensures c == NUL || c in " \t\r\n;()=-<\"" ==> !IsAlphaNumeric(c)
  {
  }

  /** `string`: the `start` bump before the loop keeps the opening quote out
      of the token when `start` was at the quote; a cut-short literal leaves
      `start` two past where the lexeme began. */
  lemma StringLiteralSpan(src: string, s: State)
    requires s.current <= |src|
    ensures var r := StringLiteral(src, s);
      forall q: nat | Closes(src, s.current, q) ::
        r.tokens == s.tokens + [Token(STRING, s.line, s.start + 1, q)] && r.start == r.current == q + 1
    ensures var r := StringLiteral(src, s);
      Unclosed(src, s.current) ==>
        r.tokens == s.tokens && r.start == s.start + 2 && |r.errors| == |s.errors| + 1
  {
    StringBodyEnds(src, s.(start := s.start + 1));
  }

  /** `identifier`: the word runs to the end of the maximal run of letters,
      digits and underscores, and its kind comes from the keyword table
      applied to the whole text from `start`. */
  lemma IdentifierToken(src: string, s: State)
    requires s.current <= |src|
    ensures var r := Identifier(src, s);
      var lexeme := Slice(src, s.start, r.current);
      var kind := if lexeme == "actor" then ACTOR else if lexeme == "action" then ACTION else IDENTIFIER;
      && r.start == r.current == IdentifierEnd(src, s.current)
      && r.line == s.line && r.errors == s.errors
      && r.tokens == s.tokens + [Token(kind, s.line, s.start, r.current)]
  {
  }

  /** Space, tab and carriage return emit nothing; only a newline read by the
      main loop moves to the next line. */
  lemma StepWhitespace(src: string, s: State)
    requires s.current <= |src| && !IsAtEnd(src, s.current)
    requires src[s.current] in " \t\r\n"
    ensures ScanStep(src, s) ==
      s.(start := s.start + 1, current := s.current + 1,
         line := if src[s.current] == '\n' then s.line + 1 else s.line)
  {
  }

  /** The one-character tokens. */
  function FixedKind(c: char): (r: Option<TokenType>)
  {
    match c
    case ';' => Some(SEMICOLON)
    case '(' => Some(LEFT_PAREN)
    case ')' => Some(RIGHT_PAREN)
    case '=' => Some(EQUAL)
    case _ => None
  }

  /** `;`, `(`, `)` and `=` each emit one token ending just after them. */
  lemma StepFixedToken(src: string, s: State)
    requires s.current <= |src| && !IsAtEnd(src, s.current)
    requires FixedKind(src[s.current]).Some?
    ensures ScanStep(src, s) ==
      s.(tokens := s.tokens + [Token(FixedKind(src[s.current]).value, s.line, s.start, s.current + 1)],
         start := s.current + 1, current := s.current + 1)
  {
  }

  /** `->` and `<-` are two-character tokens found with one character of
      lookahead; without the second character the first one is an
      "Unexpected character" error and the lookahead is left unread. */
  lemma StepArrow(src: string, s: State)
    requires s.current <= |src| && !IsAtEnd(src, s.current)
    requires src[s.current] == '-' || src[s.current] == '<'
    ensures var second := if src[s.current] == '-' then '>' else '-';
      var kind := if src[s.current] == '-' then RIGHT_ARROW else LEFT_ARROW;
      if s.current + 1 < |src| && src[s.current + 1] == second then
        ScanStep(src, s) ==
          s.(tokens := s.tokens + [Token(kind, s.line, s.start, s.current + 2)],
             start := s.current + 2, current := s.current + 2)
      else
        ScanStep(src, s) ==
          s.(errors := s.errors + [ScanError(UnexpectedCharacter, s.line, Slice(src, s.start, s.current + 1))],
             start := s.start + 1, current := s.current + 1)
  {
  }

  /** Any character that starts no token is one "Unexpected character" error
      and no token. */
  lemma StepUnexpected(src: string, s: State)
    requires s.current <= |src| && !IsAtEnd(src, s.current)
    requires src[s.current] !in " \t\r\n;()=-<\"" && !IsAlpha(src[s.current])
    ensures ScanStep(src, s) ==
      s.(errors := s.errors + [ScanError(UnexpectedCharacter, s.line, Slice(src, s.start, s.current + 1))],
         start := s.start + 1, current := s.current + 1)
  {
  }

  /** A closed string literal is one STRING token from one past `start` to
      the closing quote, which is only the text between the quotes when no
      earlier literal was cut short (`start == current` at the quote);
      scanning resumes after the closing quote. */
  lemma StepClosedString(src: string, s: State, q: nat)
    requires s.current <= |src| && !IsAtEnd(src, s.current)
    requires src[s.current] == '"' && Closes(src, s.current + 1, q)
    ensures ScanStep(src, s) ==
      s.(tokens := s.tokens + [Token(STRING, s.line, s.start + 1, q)], start := q + 1, current := q + 1)
  {
    var u := s.(current := s.current + 1, start := s.start + 1);
    assert ScanStep(src, s) == StringBody(src, u);
    StringBodyEnds(src, u);
  }

  /** A literal cut short by a newline or by the end of input adds exactly one
      "Unterminated string" error and no token; the newline that ends it does
      not count as a new line, and `start` ends up two past where it was. */
  lemma StepUnterminatedString(src: string, s: State)
    requires s.current <= |src| && !IsAtEnd(src, s.current)
    requires src[s.current] == '"' && Unclosed(src, s.current + 1)
    ensures var r := ScanStep(src, s);
      && r.tokens == s.tokens
      && r.errors == s.errors + [ScanError(UnterminatedString, s.line, Slice(src, s.start + 1, r.current))]
      && r.start == s.start + 2
      && r.line == s.line
      && (IsAtEnd(src, r.current) || src[r.current - 1] == '\n')
  {
    var u := s.(current := s.current + 1, start := s.start + 1);
    assert ScanStep(src, s) == StringBody(src, u);
    StringBodyEnds(src, u);
  }

  /** An identifier is the maximal run of letters, digits and underscores
      from its first letter or underscore; the keyword table decides between
      ACTOR, ACTION and IDENTIFIER on the text from `start`. */
  lemma StepWord(src: string, s: State) returns (e: nat)
    requires s.current <= |src| && !IsAtEnd(src, s.current)
    requires IsAlpha(src[s.current])
    ensures s.current < e <= |src|
    ensures forall i | s.current <= i < e :: IsAlphaNumeric(src[i])
    ensures e == |src| || !IsAlphaNumeric(src[e])
    ensures var lexeme := Slice(src, s.start, e);
      var kind := if lexeme == "actor" then ACTOR else if lexeme == "action" then ACTION else IDENTIFIER;
      ScanStep(src, s) == s.(tokens := s.tokens + [Token(kind, s.line, s.start, e)], start := e, current := e)
  {
    e := IdentifierEnd(src, s.current + 1);
  }

  /** The number of newlines among the first `n` characters of `src`. */
  ghost function Newlines(src: string, n: nat): (r: nat)
    requires n <= |src|
  {
    if n == 0 then 0 else Newlines(src, n - 1) + (if src[n - 1] == '\n' then 1 else 0)
  }

  lemma {:induction false} NewlinesFlat(src: string, a: nat, b: nat)
    requires a <= b <= |src|
    requires forall i | a <= i < b :: src[i] != '\n'
    ensures Newlines(src, b) == Newlines(src, a)
  {
    if a < b {
      NewlinesFlat(src, a, b - 1);
    }
  }

  /** A word: a letter or underscore followed by letters, digits and
      underscores, not followed by another such character. */
  ghost predicate WordAt(src: string, start: nat, end: nat)
  {
    && start < end <= |src|
    && IsAlpha(src[start])
    && (forall i | start <= i < end :: IsAlphaNumeric(src[i]))
    && (end == |src| || !IsAlphaNumeric(src[end]))
  }

  /** The token's offsets delimit exactly the lexeme it was made from (for a
      STRING, the content between its quotes). */
  ghost predicate LexemeOk(src: string, t: Token)
  {
    match t.kind
    case STRING => 1 <= t.start && Closes(src, t.start, t.end) && src[t.start - 1] == '"'
    case IDENTIFIER => WordAt(src, t.start, t.end) && Keyword(Text(src, t)) == None
    case ACTOR => WordAt(src, t.start, t.end) && Text(src, t) == "actor"
    case ACTION => WordAt(src, t.start, t.end) && Text(src, t) == "action"
    case SEMICOLON => t.end <= |src| && Text(src, t) == ";"
    case LEFT_PAREN => t.end <= |src| && Text(src, t) == "("
    case RIGHT_PAREN => t.end <= |src| && Text(src, t) == ")"
    case EQUAL => t.end <= |src| && Text(src, t) == "="
    case RIGHT_ARROW => t.end <= |src| && Text(src, t) == "->"
    case LEFT_ARROW => t.end <= |src| && Text(src, t) == "<-"
    case ERROR => false
    case EOF => false
  }

  /** No string literal has been cut short so far. */
  ghost predicate NoBrokenString(errors: seq<ScanError>)
  {
    forall i | 0 <= i < |errors| :: errors[i].kind != UnterminatedString
  }

  /** Until a literal is cut short, `start` equals `current` at the top of the
      loop, every token delimits its own lexeme, and the line is one more
      than the newlines read so far. */
  ghost predicate Faithful(src: string, s: State)
    requires s.current <= |src|
  {
    NoBrokenString(s.errors) ==>
      && s.start == s.current
      && (forall i | 0 <= i < |s.tokens| :: LexemeOk(src, s.tokens[i]))
      && s.line == 1 + Newlines(src, s.current)
  }

  lemma StepFaithful(src: string, s: State)
    requires Inv(src, s) && !IsAtEnd(src, s.current) && Faithful(src, s)
    ensures Faithful(src, ScanStep(src, s))
  {
    var c := src[s.current];
    if c in " \t\r\n" {
      StepWhitespace(src, s);
    } else if FixedKind(c).Some? {
      FixedFaithful(src, s);
    } else if c == '-' || c == '<' {
      ArrowFaithful(src, s);
    } else if c == '"' {
      StringFaithful(src, s);
    } else if IsAlpha(c) {
      WordFaithful(src, s);
    } else {
      StepUnexpected(src, s);
    }
  }

  lemma FixedFaithful(src: string, s: State)
    requires Inv(src, s) && !IsAtEnd(src, s.current) && Faithful(src, s)
    requires FixedKind(src[s.current]).Some?
    ensures Faithful(src, ScanStep(src, s))
  {
    StepFixedToken(src, s);
    var r := ScanStep(src, s);
    NewlinesFlat(src, s.current, r.current);
    if NoBrokenString(r.errors) {
      assert LexemeOk(src, r.tokens[|r.tokens| - 1]);
    }
  }

  lemma ArrowFaithful(src: string, s: State)
    requires Inv(src, s) && !IsAtEnd(src, s.current) && Faithful(src, s)
    requires src[s.current] == '-' || src[s.current] == '<'
    ensures Faithful(src, ScanStep(src, s))
  {
    StepArrow(src, s);
    var r := ScanStep(src, s);
    NewlinesFlat(src, s.current, r.current);
    if NoBrokenString(r.errors) && |r.tokens| > |s.tokens| {
      assert LexemeOk(src, r.tokens[|r.tokens| - 1]);
    }
  }

  lemma StringFaithful(src: string, s: State)
    requires Inv(src, s) && !IsAtEnd(src, s.current) && Faithful(src, s)
    requires src[s.current] == '"'
    ensures Faithful(src, ScanStep(src, s))
  {
    var from := s.current + 1;
    if q: nat :| Closes(src, from, q) {
      ClosedStringFaithful(src, s, q);
    } else {
      StepUnterminatedString(src, s);
      var r := ScanStep(src, s);
      assert r.errors[|r.errors| - 1].kind == UnterminatedString;
    }
  }

  lemma ClosedStringFaithful(src: string, s: State, q: nat)
    requires Inv(src, s) && !IsAtEnd(src, s.current) && Faithful(src, s)
    requires src[s.current] == '"' && Closes(src, s.current + 1, q)
    ensures Faithful(src, ScanStep(src, s))
  {
    StepClosedString(src, s, q);
    var r := ScanStep(src, s);
    NewlinesFlat(src, s.current, r.current);
    if NoBrokenString(r.errors) {
      assert LexemeOk(src, r.tokens[|r.tokens| - 1]);
    }
  }

  lemma WordFaithful(src: string, s: State)
    requires Inv(src, s) && !IsAtEnd(src, s.current) && Faithful(src, s)
    requires IsAlpha(src[s.current])
    ensures Faithful(src, ScanStep(src, s))
  {
    var e := StepWord(src, s);
    var r := ScanStep(src, s);
    NewlinesFlat(src, s.current, e);
    if NoBrokenString(r.errors) {
      assert LexemeOk(src, r.tokens[|r.tokens| - 1]);
    }
  }

  lemma {:induction false} LoopFaithful(src: string, s: State)
    requires Inv(src, s) && Faithful(src, s)
    decreases |src| - s.current
    ensures Faithful(src, ScanLoop(src, s))
  {
    if !IsAtEnd(src, s.current) {
      StepKeepsInv(src, s);
      StepFaithful(src, s);
      LoopFaithful(src, ScanStep(src, s));
    }
  }

  /** When no string literal is cut short, every token but EOF delimits
      exactly its lexeme, and on NUL-free input the EOF token's line is one
      more than the number of newlines in the source. */
  lemma ScanLexemes(src: string)
    ensures var r := Scan(src);
      NoBrokenString(r.errors) ==>
        && (forall i | 0 <= i < |r.tokens| - 1 :: LexemeOk(src, r.tokens[i]))
        && ((forall k | 0 <= k < |src| :: src[k] != NUL) ==> r.tokens[|r.tokens| - 1].line == 1 + Newlines(src, |src|))
  {
    LoopFaithful(src, Initial);
    var s := ScanLoop(src, Initial);
    assert Scan(src).tokens == s.tokens + [Token(EOF, s.line, |src|, |src| + 1)];
  }
}
